=== FILE: README.md ===
# Velociraptor hunt dispatcher — a Dafny model

A hunt is a fleet-wide collection task. The hunt manager in `flows/hunts.go`
keeps per-hunt queues of client summaries (`HuntInfo`) in the datastore:
`pending`, `running`, `completed`, `errors`, `results` and `no_results`. A
refresh loop (`HuntDispatcher.Update`) then does two things for every
RUNNING hunt:

- **Scheduling.** It moves clients from `pending` to `running` at the hunt's
  client rate (`_ScheduleClientsForHunt`).
- **Triage.** It files every `completed` client under `errors`, `results` or
  `no_results` (`_SortResultsForHunt`).

Around it sits a small API:

- creating a hunt (defaults and a fresh `H.<8 hex digits>` id);
- changing its state;
- listing and looking hunts up in the in-memory mirror;
- paging through a hunt's queues.

The model is a set of pure functions over an immutable store:

- `HuntTypes.Store` maps hunt ids to hunt objects and to their queues.
- `pending` and `completed` are sequences in listing order. The store's
  `ListChildren(dir, offset, n)` is `Common.Page`.
- The other queues are maps from client id to record. A write replaces an
  earlier record under the same key.
- A summary the store cannot read is an `Entry` whose `info` is `None`.

Parameters stand for the environment:

- the clock (`now`, microseconds);
- the outcome of launching a client's flow (`launch: HuntInfo -> Launch`);
- the random bytes of a new hunt id;
- the store's listing of a directory (`listDir`).

The due-count arithmetic and `Offset + Count` in `ListHunts` are written out
modulo 2^64 (`Common.Wrap64`). That covers the elapsed-time difference, the
rate product and the expected-clients sum. The `+= 1` counters are unbounded
(see "Counter overflow" below).

Modules:

- `Common`: options, results, uint64 wrap, pagination, the `WrittenUnder`
  frame predicate.
- `HuntTypes`: hunts, summaries, queues, the store.
- `Scheduler`: `_ScheduleClientsForHunt`.
- `Triage`: `_SortResultsForHunt`.
- `Dispatcher`: `Update`.
- `HuntIds`: `GetNewHuntId`, hex encoding, `path.Base`.
- `Lifecycle`: `CreateHunt`, `ModifyHunt`, `GetApplicableHunts`, `ListHunts`,
  `GetHunt`, `ListHuntClients`, `GetHuntInfos`, and the request checks shared
  with `GetHuntResults`.

Where the code and its documentation differ, the model follows the code:

- A hunt id carries 8 hex digits (4 random bytes), not 16.
- The rate quotient is `(rate * seconds) / 60`.
- The elapsed-time subtraction wraps instead of being guarded. A clock
  reading before the base time yields a huge elapsed time, as the uint64
  code does.
- `ModifyHunt` never resets the unpause bookkeeping (see Findings).

## Model

| member | source | states |
|---|---|---|
| Scheduler.ExpectedClients | flows/hunts.go:180-195 | The due count is a uint64. With the rate defaulting to 20 and the base time to CreateTime, it is rate * whole seconds since the base / 60 + TotalClientsWhenUnpaused, whenever the clock is at or past the base and nothing overflows |
| Scheduler.Due | flows/hunts.go:201-205 | The number of clients to pull is the deficit: TotalClientsScheduled plus the deficit is max(TotalClientsScheduled, due count). It is zero if and only if the hunt has already scheduled the due count |
| Scheduler.ExpectedClientsMonotone | flows/hunts.go:187-195 | A later clock reading never lowers the due count, so the scheduler's quota only grows while the hunt runs |
| Scheduler.ScheduleEntry | flows/hunts.go:234-283 | An unreadable pending summary changes nothing. A launched one is written to `running` under its client id, with the returned flow id and otherwise unchanged, and TotalClientsScheduled grows by one. A failed one is written to `errors` with state ERROR, a result stamped with the clock and the launch error, and TotalClientsWithErrors grows by one. Other keys and queues are untouched |
| Scheduler.ScheduleBatch | flows/hunts.go:234-283 | Over a page of pending entries, the two counters grow by the number of launched and failed entries. Nothing but `running`, `errors` and those counters changes. The pass reports a modification exactly when some counter moved |
| Scheduler.ScheduleBatchRunning | flows/hunts.go:276-282 | After a page, `running` holds its earlier keys plus exactly the launched clients. Each new record belongs to its client and is one of the launched records. Other clients keep their records |
| Scheduler.ScheduleBatchErrors | flows/hunts.go:256-273 | After a page, `errors` holds its earlier keys plus exactly the clients whose launch failed. Each new record belongs to its client and has state ERROR. Other clients keep their records |
| Scheduler.ReadableCounted | flows/hunts.go:234-283 | A page moves some counter if and only if it contains a readable summary |
| Scheduler.AllLaunched | flows/hunts.go:276-282 | When every entry is readable and launches, each one counts once as scheduled and none as failed |
| Scheduler.Pulled | flows/hunts.go:201-208 | The scheduler pulls the first min(deficit, queue length) pending entries, where the deficit is due count minus TotalClientsScheduled |
| Scheduler.ScheduleClients | flows/hunts.go:171-286 | Nothing is pulled when TotalClientsScheduled has reached the due count. The counter never decreases and never passes max(old, due). Launches plus failures are at most the deficit. Every pulled entry leaves `pending`, whatever became of it. `completed`, `results` and `no_results` are untouched. A modification is reported if and only if a pulled summary was readable |
| Scheduler.ScheduleClientsFiles | flows/hunts.go:218-283 | After a pass, `running` and `errors` gain exactly the launched and the failed pulled clients respectively. Each new `running` record belongs to its client and is one of the launched records, which carry the returned flow id. Each new `errors` record belongs to its client, has state ERROR and is one of the failure records. Earlier clients keep their records in both queues |
| Triage.Classify | flows/hunts.go:138-155 | Unreadable, no result, or result state ERROR goes to `errors`. Otherwise more than zero results goes to `results` and zero goes to `no_results`. Each condition holds if and only if that destination is chosen; the fourth branch is unreachable |
| Triage.TriageEntry | flows/hunts.go:135-163 | One completed entry bumps exactly the counter of its destination. It is written into exactly that queue, under its client id (empty for an unreadable summary). The other queues are unchanged |
| Triage.CountToPartition | flows/hunts.go:138-155 | Every entry of a page is counted under exactly one destination |
| Triage.TriageBatch | flows/hunts.go:135-164 | Each triage counter grows by the number of the page's entries classified into it. Only the three destination queues and counters change. A modification is reported if and only if the page is non-empty |
| Triage.TriageBatchFiles | flows/hunts.go:138-161 | After a page, each destination queue holds its earlier keys plus exactly the client ids of the entries classified into it. Other keys keep their records |
| Triage.TriageBatchRecords | flows/hunts.go:138-161 | Every record a page leaves under a new key is a summary of one of the page's entries classified into that queue, and belongs to the client it is filed under |
| Triage.SortResults | flows/hunts.go:104-167 | One call processes min(100, queue length) completed entries and removes exactly those from `completed`. The triage total grows by that count, and each counter by the entries classified into it. `pending` and `running` are untouched |
| Dispatcher.DrainCompleted | flows/hunts.go:77-91 | Sorting until a page comes back empty empties `completed` and adds each entry's classification to the counters. It reports a modification if and only if there was a backlog. It terminates because every non-empty page shortens the queue |
| Dispatcher.DrainCompletedFiles | flows/hunts.go:77-91 | After draining, each destination queue holds its earlier keys plus exactly the client ids of the backlog's entries classified into it |
| Dispatcher.DrainCompletedRecords | flows/hunts.go:77-91 | After draining, every key the backlog filed into a destination holds the summary of one of the backlog's entries classified into it, and that summary belongs to the client it is filed under |
| Dispatcher.DrainStep | flows/hunts.go:77-91 | The triage half of a refresh keeps `pending`, `running` and the scheduled count, empties `completed` and grows each triage counter by the backlog entries classified into it. Each destination keeps its records and gains exactly the classified client ids, each holding that client's summary. A modification is reported if and only if scheduling reported one or there was a backlog |
| Dispatcher.RefreshRunning | flows/hunts.go:72-91 | For a RUNNING hunt, scheduling and then draining leave `pending` and `running` as scheduling left them and `completed` empty. Each counter grows from scheduling's value by exactly the backlog entries classified into it, so the triage total grows by the backlog's length and no counter decreases. Each of `errors`, `results` and `no_results` keeps what scheduling left in it and gains exactly the backlog's client ids classified into it, each holding that client's summary from the backlog. A modification is reported if and only if scheduling modified the hunt or there was a backlog, which is exactly when the hunt changed |
| Dispatcher.UpdateHunt | flows/hunts.go:66-98 | A hunt that is not RUNNING is left as is and not written. A RUNNING hunt first schedules, then drains `completed` without disturbing what scheduling did: `pending` and `running` stay as scheduling left them, and each destination queue keeps scheduling's records and gains exactly the backlog's client ids classified into it, each holding that client's summary. Each triage counter grows from scheduling's value by the backlog entries classified into it. Only the four counters change, and none decreases. The hunt object is written back if and only if scheduling or triage modified it, which is exactly when it changed. Other hunts' queues are untouched |
| Dispatcher.RateBoundPreserved | flows/hunts.go:180-208 | If TotalClientsScheduled is within the due count at one clock reading, it is within the due count after a refresh at any later reading, absent overflow |
| Dispatcher.FiveSecondScenario | flows/hunts.go:180-283 | A RUNNING hunt at 60 clients per minute has five readable pending clients and every launch succeeds. Five seconds after creation, a refresh schedules all five, empties `pending` and writes the hunt back |
| Dispatcher.Update | flows/hunts.go:60-102 | The refresh keeps every hunt's state and id and leaves non-running hunts identical. No counter of any hunt decreases, and each scheduled count stays between its old value and max(old, due). Every RUNNING hunt's `completed` queue is empty afterwards, and a queue that was empty stays empty. It writes neither the object nor the queues of an id that no running hunt has |
| Dispatcher.UpdatePerHunt | flows/hunts.go:66-98 | When the loaded hunts have distinct ids, each hunt's in-memory result, its queues and its stored object are exactly what one `UpdateHunt` on the original store gives. Hunts earlier in the loop do not affect it |
| Dispatcher.UpdateWritesBack | flows/hunts.go:93-98 | When the loaded hunts have distinct ids, a hunt's stored object is its refreshed value whenever the refresh changed it, and is left as it was otherwise |
| Dispatcher.UpdateIdleIsIdentity | flows/hunts.go:66-71 | With no RUNNING hunt, a refresh changes neither the hunts nor the store |
| HuntIds.HexEncode | flows/hunts.go:369-373 | The encoding has two lower-case hex digits per byte, and decoding it gives back the bytes |
| HuntIds.GetNewHuntId | flows/hunts.go:368-376 | A new id is `aff4:/hunts/H.` followed by 8 lower-case hex digits that decode to the 4 random bytes. Its `path.Base` is the short id `H.<hex>` |
| HuntIds.PathBaseOfJoin | flows/hunts.go:462-463 | `path.Base(dir + "/" + name)` is `name` for any non-empty name without a slash, which is how `GetHunt` matches short ids |
| Lifecycle.CreateHunt | flows/hunts.go:397-406 | A new hunt gets a fresh id, and CreateTime = LastUnpauseTime = now. Expires is replaced by now + 7 days exactly when it lies before now. State UNSET becomes PAUSED and any other state is kept. Every other field of the request is kept, and the hunt is stored under its id |
| Lifecycle.CreatedHuntStartsFromZero | flows/hunts.go:398-399 | A newly created hunt has no clients due at its creation time beyond TotalClientsWhenUnpaused |
| Lifecycle.ModifyHunt | flows/hunts.go:583-630 | An unreadable hunt is an error. A modification with state UNSET fails with "Modification not supported." Otherwise only the stored state changes; LastUnpauseTime and TotalClientsWhenUnpaused are never reset |
| Lifecycle.ModifyHuntUnpauseBursts | flows/hunts.go:600-612 | Unpausing a hunt at 60 per minute an hour after creation makes 3600 clients due at once |
| Lifecycle.ModifyHuntIntended | flows/hunts.go:603-612 | With the PAUSED test made on the stored state, unpausing sets LastUnpauseTime to now and TotalClientsWhenUnpaused to TotalClientsScheduled. Every other change touches only the state |
| Lifecycle.IntendedUnpauseSchedulesNothing | flows/hunts.go:603-612 | After an intended unpause, the next scheduling pass at the same clock pulls nothing, however long the pause was |
| Lifecycle.GetApplicableHunts | flows/hunts.go:41-50 | A hunt is in the result if and only if it is in the mirror and was created after the timestamp |
| Lifecycle.ApplicableHuntsOfConcat | flows/hunts.go:41-50 | The filter keeps mirror order: filtering a concatenation concatenates the filtered parts |
| Lifecycle.ListHunts | flows/hunts.go:433-453 | The page holds exactly the applicable hunts at positions [Offset, Offset + Count) of the filtered list, in order. When Offset + Count overflows uint64, the page is empty |
| Lifecycle.GetHunt | flows/hunts.go:455-477 | The result is "Not found" if and only if no applicable hunt's id has that `path.Base`. Otherwise it is an applicable hunt whose id has that base |
| Lifecycle.GetHuntFindsFirst | flows/hunts.go:462-476 | Of several matching hunts, the first in mirror order is returned |
| Lifecycle.PageCount | flows/hunts.go:639-642 | A count of 0 means 50; any other count is kept |
| Lifecycle.CollectReadable | flows/hunts.go:666-674 | The result holds exactly the readable summaries of the listing, and is no longer than it. An empty listing gives nothing, and a single entry gives its summary if it is readable and nothing otherwise |
| Lifecycle.CollectReadableConcat | flows/hunts.go:666-674 | Collecting a listing split in two gives the two halves' summaries one after the other. With the one-entry case, this means summaries come out in listing order, duplicates kept |
| Lifecycle.CollectReadableAllReadable | flows/hunts.go:666-674 | When every entry is readable, the i-th summary returned is the i-th entry's |
| Lifecycle.QueueSuffix | flows/hunts.go:644-656 | PENDING lists `/pending`, SCHEDULED `/running`, COMPLETED `/completed` and RESULTS `/results`. Any other kind lists `/pending` |
| Lifecycle.ListHuntClients | flows/hunts.go:632-677 | A summary is returned if and only if it is readable and its index in the chosen queue lies in the requested window. The result is the readable summaries of the window's slice of the listing, in listing order, and empty when the offset is past the end. The window's count defaults to 50; at most that many are returned |
| Lifecycle.ValidateResultsRequest | flows/hunts.go:486-492 | A request is refused with "Invalid hunt id" if and only if its id lacks the `aff4:/hunts/H.` prefix. An accepted request has its zero count replaced by 50. `GetHuntResults` makes the same two checks in the same order (lines 521-527) |
| Lifecycle.GetHuntInfos | flows/hunts.go:479-512 | A malformed id is refused before the store is listed. Otherwise a summary is returned if and only if it is readable and its index in `results` lies in the window. The result is the readable summaries of that slice of `results`, in listing order, and empty past the end. The count defaults to 50 |
| Lifecycle.GetHuntInfosExamples | flows/hunts.go:486-511 | `not-a-hunt-id` is refused. `aff4:/hunts/H.ABCDEF0123456789` with an empty `results` queue yields an empty page, not an error |

## Left out

- The mirror container, its locking and the 10-second refresh goroutine
  (`HuntDispatcherContainer.Refresh`, `GetHuntDispatcher`). They carry no
  logic beyond concurrency.
- `NewHuntDispatcher`'s store loading (flows/hunts.go:314-342). It lists at
  most 100 hunts. If any one of them cannot be read, the whole load is
  abandoned (lines 328-331), and `Refresh` then publishes an empty
  dispatcher (lines 301-303). `Dispatcher.Update` takes the loaded list as
  given. The hunts it loads come from distinct subjects, which is why
  `Dispatcher.UpdatePerHunt` assumes distinct ids.
- Datastore and gRPC failures other than an unreadable summary:
  - failing `GetDB` or `ListChildren`;
  - a failing `ptypes.MarshalAny`;
  - a failing `SetSubject` of the hunt object (flows/hunts.go:93-98).

  The code logs these or returns early, so the model treats every write and
  listing as successful.
- A failing `SetSubject` of a client record. The model always stores the
  record, but the code moves on and loses it:
  - In scheduling (flows/hunts.go:271 and 279), the error goes to the
    loop-local `err` declared at line 237, which is never read again. The
    failure is neither logged nor returned. The counter still moves (lines
    267 and 281) and the entry is still deleted from `pending` (lines
    220-227), so the client is counted as scheduled or failed while no
    record of it exists in `running` or `errors`.
  - In triage (flows/hunts.go:157-160), the error is returned and logged by
    `Update` (lines 80-82). The counter still moves and the entry is still
    deleted from `completed`, so the record is lost, with only a log line
    left.
- A failing `DeleteSubject` in the deferred cleanups. The model always
  removes a processed page, and this is not harmless:
  - In triage (flows/hunts.go:126-133), the failed entries stay in
    `completed`. The drain loop (lines 78-91) lists the same page again,
    files it again and bumps the counters again. If the failure persists,
    the loop never ends. `Dispatcher.DrainCompleted` terminates only
    because every page is removed.
  - In scheduling (flows/hunts.go:220-227), the pulled entries stay in
    `pending`. The next refresh launches those clients again and counts
    them again.
- The clock reads inside a refresh. The code reads `time.Now()` once per
  hunt (flows/hunts.go:192) and again for every failed launch (line 263).
  `Dispatcher.Update` uses one `now` for all of them. A refresh that spans a
  second boundary, or failure records stamped at different instants, are
  not modelled.
- Error values are not tracked. `Update` discards them, and the API's error
  texts are modelled only where the code produces a fixed one.
- Logging, `NotifyClients` and the refresh trigger after `CreateHunt` and
  `ModifyHunt`. These are side effects outside the store.
- `GetHuntResults` after its request checks. Its offset accounting calls
  `GetFlowResults`, which is not part of this model.
- `FindCollectedArtifacts`, which depends on proto `Any` unmarshalling.
- `HuntRunnerFlow` (Start, Load, Save, ProcessMessage). It delegates to the
  flow engine, which is not part of this model.
- Randomness and the wall clock. `GetNewHuntId` takes its 4 bytes as an
  argument, and the clock is a `now` parameter. `CreateHunt` uses one `now`
  for both of its reads (lines 398 and 401), so its 7-day default is exact.
  The reads inside a refresh are merged as described above.
- `urns.BuildURN` is not part of this model. It is taken to produce
  `aff4:/hunts/<name>`, the form the request checks accept.
- The zero value of `FlowContext.State` is not visible either. The failure
  record the scheduler writes is given `FlowRunning`, the first state.
- Counter overflow. The `+= 1` counters (flows/hunts.go:143, 148, 152, 267,
  281) are unbounded naturals, so a TotalClientsScheduled at 2^64 - 1 does
  not wrap before the comparison at line 201. Only the due-count arithmetic
  and `Offset + Count` wrap.
- A launch outcome is a function of the summary. The model cannot express
  two launches of equal summaries that end differently within one pass.
- Queue conservation across the six queues (a client in at most one queue
  after a cycle) depends on how the foreman enqueues clients, which lies
  outside this code. The model proves the parts this code is responsible
  for:
  - pulled entries leave `pending` (`Scheduler.ScheduleClients`);
  - drained entries leave `completed` (`Dispatcher.DrainCompleted`);
  - each lands in exactly one destination (`Triage.TriageEntry`,
    `Scheduler.ScheduleEntry`).
- Lifecycle.ModifyHunt: a hunt id the store does not hold is treated as a
  failed read. The datastore's behaviour on a missing subject is not part of
  this model.
- Scheduler.ExpectedClientsMonotone: proved only when the clock is at or
  past the base time and the product and sum stay below 2^64. Beyond that,
  the wrapped value can drop.

## Findings

| source | as written | input that shows it | evidently intended | confidence | as-written member | corrected member |
|---|---|---|---|---|---|---|
| flows/hunts.go:600-612 | The stored state is overwritten with the requested one before the test `hunt_obj.State == PAUSED && modification.State == RUNNING`. The test therefore never holds, and LastUnpauseTime and TotalClientsWhenUnpaused are never reset on unpause | A PAUSED hunt at 60 clients per minute, created at t = 1 s with nothing scheduled, is set to RUNNING at t = 3601 s. 3600 clients are due at once | Test the stored state before overwriting it. The paused interval is then not caught up, and nothing is due at the moment of unpausing | not executed | Lifecycle.ModifyHuntUnpauseBursts | Lifecycle.ModifyHuntIntended |

=== FILE: common.dfy ===
/** Shared vocabulary: optional values, results carrying an error message,
    the uint64 arithmetic of the Go code, and the store's paginated listing. */
module Common {

  /** A value that may be absent (a nil reference, an unreadable record). */
  datatype Option<+T> = None | Some(value: T)

  /** A Go `(value, error)` pair: either a value or an error message. */
  datatype Result<+T> = Ok(value: T) | Err(msg: string)

  /** 2^64: every `uint64` of the source lies below this bound. */
  const U64: nat := 0x1_0000_0000_0000_0000

  /** Reduces an exact integer to the value a `uint64` holds after the same
      operation, i.e. arithmetic modulo 2^64 (also for a negative difference). */
  function Wrap64(x: int): (r: nat)
    ensures r < U64
    ensures 0 <= x < U64 ==> r == x
    ensures -(U64 as int) <= x < 0 ==> r == x + U64
  {
    x % U64
  }

  function Min(a: int, b: int): int
  {
    if a <= b then a else b
  }

  function Max(a: int, b: int): int
  {
    if a <= b then b else a
  }

  /** The store's `ListChildren(dir, offset, limit)`: at most `limit` children
      of the directory, starting at position `offset` of its listing order. */
  function Page<T>(listing: seq<T>, offset: nat, limit: nat): (r: seq<T>)
    ensures |r| <= limit
    ensures offset <= |listing| ==> |r| == Min(limit, |listing| - offset)
    ensures offset >= |listing| ==> r == []
    ensures forall i :: 0 <= i < |r| ==> offset + i < |listing| && r[i] == listing[offset + i]
  {
    if offset >= |listing| then [] else listing[offset..Min(offset + limit, |listing|)]
  }

  /** Go's `strings.HasPrefix`. */
  predicate HasPrefix(s: string, prefix: string)
  {
    |prefix| <= |s| && s[..|prefix|] == prefix
  }

  /** `after` is `before` with records written under `keys` (a write may
      replace an earlier record); every other key keeps its record. */
  ghost predicate WrittenUnder<K, V>(before: map<K, V>, after: map<K, V>, keys: set<K>)
  {
    && after.Keys == before.Keys + keys
    && forall k :: k in before && k !in keys ==> after[k] == before[k]
  }

  /** Two rounds of writes are one round under both key sets. */
  lemma WrittenUnderCompose<K, V>(m0: map<K, V>, m1: map<K, V>, m2: map<K, V>, k1: set<K>, k2: set<K>)
    requires WrittenUnder(m0, m1, k1) && WrittenUnder(m1, m2, k2)
    ensures WrittenUnder(m0, m2, k1 + k2)
  {
  }
}

=== FILE: dispatcher.dfy ===
/** The dispatcher's refresh step (`HuntDispatcher.Update`): for every
    running hunt, schedule once, drain the completed queue, and persist the
    hunt object if either step changed it. */
module Dispatcher {
  import opened Common
  import opened HuntTypes
  import opened Scheduler
  import opened Triage

  /** The triage loop of `Update`: sort pages until one comes back empty.
      Each non-empty page shortens `completed`, which bounds the loop. */
  function DrainCompleted(h: Hunt, q: HuntQueues): (r: Step)
    decreases |q.completed|
    ensures r.queues.completed == []
    ensures r.modified <==> |q.completed| > 0
    ensures forall d :: CounterOf(r.hunt, d) == CounterOf(h, d) + CountTo(q.completed, d)
    ensures r.hunt == h.(totalClientsWithErrors := r.hunt.totalClientsWithErrors,
                         totalClientsWithResults := r.hunt.totalClientsWithResults,
                         totalClientsWithoutResults := r.hunt.totalClientsWithoutResults)
    ensures r.queues.pending == q.pending && r.queues.running == q.running
  {
    var sorted := SortResults(h, q);
    if sorted.resultCount == 0 then Step(sorted.step.hunt, sorted.step.queues, false)
    else
      var rest := DrainCompleted(sorted.step.hunt, sorted.step.queues);
      assert q.completed == q.completed[..sorted.resultCount] + q.completed[sorted.resultCount..];
      forall d: Destination
        ensures CountTo(q.completed, d)
                == CountTo(q.completed[..sorted.resultCount], d) + CountTo(q.completed[sorted.resultCount..], d)
      {
        CountToAppend(q.completed[..sorted.resultCount], q.completed[sorted.resultCount..], d);
      }
      Step(rest.hunt, rest.queues, sorted.step.modified || rest.modified)
  }

  /** Draining files every completed entry: each destination queue gains
      exactly the keys of the entries classified into it. */
  lemma {:induction false} DrainCompletedFiles(h: Hunt, q: HuntQueues, d: Destination)
    decreases |q.completed|
    ensures WrittenUnder(DestinationQueue(q, d), DestinationQueue(DrainCompleted(h, q).queues, d), KeysTo(q.completed, d))
  {
    var sorted := SortResults(h, q);
    if sorted.resultCount > 0 {
      var n := sorted.resultCount;
      var first, rest := q.completed[..n], q.completed[n..];
      var q0 := q.(completed := rest);
      assert first == Page(q.completed, 0, TriageBatchSize);
      assert sorted.step == TriageBatch(h, q0, first);
      assert DestinationQueue(q0, d) == DestinationQueue(q, d);
      TriageBatchFiles(h, q0, first, d);
      var mid := sorted.step.queues;
      assert mid.completed == rest;
      DrainCompletedFiles(sorted.step.hunt, mid, d);
      assert DrainCompleted(h, q).queues == DrainCompleted(sorted.step.hunt, mid).queues;
      assert q.completed == first + rest;
      CountToAppend(first, rest, d);
      WrittenUnderCompose(DestinationQueue(q, d), DestinationQueue(mid, d), DestinationQueue(DrainCompleted(h, q).queues, d),
                          KeysTo(first, d), KeysTo(rest, d));
    } else {
      assert q.completed == [];
    }
  }

  /** Draining files each backlog entry's summary under its own client id:
      every key the backlog adds to a destination holds one of the
      summaries classified into it. */
  lemma {:induction false} DrainCompletedRecords(h: Hunt, q: HuntQueues, d: Destination)
    decreases |q.completed|
    ensures var after := DestinationQueue(DrainCompleted(h, q).queues, d);
      forall k :: k in KeysTo(q.completed, d) ==>
        && k in after
        && after[k] in RecordsTo(q.completed, d)
        && after[k].clientId == k
  {
    var sorted := SortResults(h, q);
    if sorted.resultCount > 0 {
      var n := sorted.resultCount;
      var first, rest := q.completed[..n], q.completed[n..];
      var q0 := q.(completed := rest);
      assert first == Page(q.completed, 0, TriageBatchSize);
      assert sorted.step == TriageBatch(h, q0, first);
      TriageBatchRecords(h, q0, first, d);
      var mid := sorted.step.queues;
      assert mid.completed == rest;
      DrainCompletedRecords(sorted.step.hunt, mid, d);
      DrainCompletedFiles(sorted.step.hunt, mid, d);
      var after := DestinationQueue(DrainCompleted(h, q).queues, d);
      assert DrainCompleted(h, q).queues == DrainCompleted(sorted.step.hunt, mid).queues;
      assert q.completed == first + rest;
      CountToAppend(first, rest, d);
      forall k | k in KeysTo(q.completed, d)
        ensures k in after && after[k] in RecordsTo(q.completed, d) && after[k].clientId == k
      {
        if k !in KeysTo(rest, d) {
          assert k in KeysTo(first, d);
          assert after[k] == DestinationQueue(mid, d)[k];
        }
      }
    } else {
      assert q.completed == [];
    }
  }

  /** `DrainCompletedFiles` for every destination at once. */
  lemma DrainCompletedFilesAll(h: Hunt, q: HuntQueues)
    ensures forall d :: WrittenUnder(DestinationQueue(q, d), DestinationQueue(DrainCompleted(h, q).queues, d), KeysTo(q.completed, d))
    ensures forall d, k :: k in KeysTo(q.completed, d) ==>
              && k in DestinationQueue(DrainCompleted(h, q).queues, d)
              && DestinationQueue(DrainCompleted(h, q).queues, d)[k] in RecordsTo(q.completed, d)
              && DestinationQueue(DrainCompleted(h, q).queues, d)[k].clientId == k
  {
    forall d: Destination
      ensures WrittenUnder(DestinationQueue(q, d), DestinationQueue(DrainCompleted(h, q).queues, d), KeysTo(q.completed, d))
    {
      DrainCompletedFiles(h, q, d);
    }
    forall d: Destination
      ensures forall k :: k in KeysTo(q.completed, d) ==>
                && k in DestinationQueue(DrainCompleted(h, q).queues, d)
                && DestinationQueue(DrainCompleted(h, q).queues, d)[k] in RecordsTo(q.completed, d)
                && DestinationQueue(DrainCompleted(h, q).queues, d)[k].clientId == k
    {
      DrainCompletedRecords(h, q, d);
    }
  }

  /** The triage half of a refresh, run on what scheduling left: drain
      `completed`, keeping `pending`, `running` and the scheduled count. */
  function DrainStep(s: Step): (t: Step)
    ensures t.hunt == s.hunt.(totalClientsWithErrors := t.hunt.totalClientsWithErrors,
                              totalClientsWithResults := t.hunt.totalClientsWithResults,
                              totalClientsWithoutResults := t.hunt.totalClientsWithoutResults)
    ensures t.queues.pending == s.queues.pending && t.queues.running == s.queues.running
    ensures t.queues.completed == []
    ensures forall d :: CounterOf(t.hunt, d) == CounterOf(s.hunt, d) + CountTo(s.queues.completed, d)
    ensures TriagedTotal(t.hunt) == TriagedTotal(s.hunt) + |s.queues.completed|
    ensures t.modified <==> s.modified || |s.queues.completed| > 0
    ensures forall d :: WrittenUnder(DestinationQueue(s.queues, d), DestinationQueue(t.queues, d),
                                     KeysTo(s.queues.completed, d))
    ensures forall d, k :: k in KeysTo(s.queues.completed, d) ==>
              && k in DestinationQueue(t.queues, d)
              && DestinationQueue(t.queues, d)[k] in RecordsTo(s.queues.completed, d)
              && DestinationQueue(t.queues, d)[k].clientId == k
  {
    var d := DrainCompleted(s.hunt, s.queues);
    DrainCompletedFilesAll(s.hunt, s.queues);
    CountToPartition(s.queues.completed);
    Step(d.hunt, d.queues, s.modified || d.modified)
  }

  /** The work `Update` does on one RUNNING hunt: schedule once, then drain
      `completed`. The step is marked modified exactly when some counter moved. */
  function RefreshRunning(h: Hunt, q: HuntQueues, now: nat, launch: HuntInfo -> Launch): (t: Step)
    ensures t.hunt == h.(totalClientsScheduled := t.hunt.totalClientsScheduled,
                         totalClientsWithErrors := t.hunt.totalClientsWithErrors,
                         totalClientsWithResults := t.hunt.totalClientsWithResults,
                         totalClientsWithoutResults := t.hunt.totalClientsWithoutResults)
    ensures forall d :: CounterOf(h, d) <= CounterOf(t.hunt, d)
    ensures h.totalClientsScheduled <= t.hunt.totalClientsScheduled
            <= Max(h.totalClientsScheduled, ExpectedClients(h, now))
    ensures var s := ScheduleClients(h, q, now, launch);
      // Triage runs after scheduling and leaves its work alone.
      && t.queues.pending == s.queues.pending
      && t.queues.running == s.queues.running
      && t.hunt.totalClientsScheduled == s.hunt.totalClientsScheduled
      // The whole completed backlog is drained.
      && t.queues.completed == []
      && TriagedTotal(t.hunt) == TriagedTotal(s.hunt) + |q.completed|
      && (t.modified <==> s.modified || |q.completed| > 0)
    // Each destination queue keeps what scheduling left in it and gains
    // exactly the backlog's entries classified into it ...
    ensures var s := ScheduleClients(h, q, now, launch);
      forall d :: WrittenUnder(DestinationQueue(s.queues, d), DestinationQueue(t.queues, d), KeysTo(q.completed, d))
    // ... each such key holding its own entry's summary ...
    ensures forall d, k :: k in KeysTo(q.completed, d) ==>
              && k in DestinationQueue(t.queues, d)
              && DestinationQueue(t.queues, d)[k] in RecordsTo(q.completed, d)
              && DestinationQueue(t.queues, d)[k].clientId == k
    // ... and each counter grows by the backlog entries classified into it.
    ensures var s := ScheduleClients(h, q, now, launch);
      forall d :: CounterOf(t.hunt, d) == CounterOf(s.hunt, d) + CountTo(q.completed, d)
    ensures t.modified <==> t.hunt != h
  {
    var s := ScheduleClients(h, q, now, launch);
    assert s.queues.completed == q.completed;
    assert s.modified <==> s.hunt != h by {
      ReadableCounted(Pulled(h, q, now), launch);
    }
    DrainStep(s)
  }

  /** The outcome of updating one hunt: the in-memory hunt, the store, and
      whether the hunt object was written back. */
  datatype HuntUpdate = HuntUpdate(hunt: Hunt, store: Store, persisted: bool)

  /** One iteration of `Update`'s loop over the loaded hunts. */
  function UpdateHunt(h: Hunt, store: Store, now: nat, launch: HuntInfo -> Launch): (r: HuntUpdate)
    // Hunts that are not running are frozen: no scheduling, no triage, no write.
    ensures h.state != Running ==> r == HuntUpdate(h, store, false)
    ensures r.hunt.state == h.state && r.hunt.huntId == h.huntId
    // Only the four counters change; the rate, the base times and the unpause count are kept.
    ensures r.hunt == h.(totalClientsScheduled := r.hunt.totalClientsScheduled,
                         totalClientsWithErrors := r.hunt.totalClientsWithErrors,
                         totalClientsWithResults := r.hunt.totalClientsWithResults,
                         totalClientsWithoutResults := r.hunt.totalClientsWithoutResults)
    // No counter ever goes down.
    ensures forall d :: CounterOf(h, d) <= CounterOf(r.hunt, d)
    // Rate bound, inherited from the scheduler; triage never touches it.
    ensures h.totalClientsScheduled <= r.hunt.totalClientsScheduled
            <= Max(h.totalClientsScheduled, ExpectedClients(h, now))
    ensures h.state == Running ==>
              var q := QueuesOf(store, h.huntId);
              var s := ScheduleClients(h, q, now, launch);
              && QueuesOf(r.store, h.huntId).pending == s.queues.pending
              && QueuesOf(r.store, h.huntId).running == s.queues.running
              && r.hunt.totalClientsScheduled == s.hunt.totalClientsScheduled
              && QueuesOf(r.store, h.huntId).completed == []
              && TriagedTotal(r.hunt) == TriagedTotal(s.hunt) + |q.completed|
              // Persisted exactly when scheduling or triage changed the hunt.
              && (r.persisted <==> s.modified || |q.completed| > 0)
    // Triage files the backlog on top of what scheduling filed.
    ensures h.state == Running ==>
              var q := QueuesOf(store, h.huntId);
              var s := ScheduleClients(h, q, now, launch);
              forall d :: WrittenUnder(DestinationQueue(s.queues, d), DestinationQueue(QueuesOf(r.store, h.huntId), d), KeysTo(q.completed, d))
    // Each filed key holds its own entry's summary.
    ensures h.state == Running ==>
              var q := QueuesOf(store, h.huntId);
              var after := QueuesOf(r.store, h.huntId);
              forall d, k :: k in KeysTo(q.completed, d) ==>
                && k in DestinationQueue(after, d)
                && DestinationQueue(after, d)[k] in RecordsTo(q.completed, d)
                && DestinationQueue(after, d)[k].clientId == k
    // Each triage counter grows by the backlog entries classified into it.
    ensures h.state == Running ==>
              var q := QueuesOf(store, h.huntId);
              var s := ScheduleClients(h, q, now, launch);
              forall d :: CounterOf(r.hunt, d) == CounterOf(s.hunt, d) + CountTo(q.completed, d)
    // The object is written back exactly when some counter moved.
    ensures r.persisted <==> r.hunt != h
    ensures r.persisted ==> r.store.subjects == store.subjects[h.huntId := r.hunt]
    ensures !r.persisted ==> r.store.subjects == store.subjects
    // Queues of other hunts are untouched.
    ensures forall id :: id != h.huntId ==> QueuesOf(r.store, id) == QueuesOf(store, id)
  {
    if h.state != Running then HuntUpdate(h, store, false)
    else
      var t := RefreshRunning(h, QueuesOf(store, h.huntId), now, launch);
      var r := WriteBack(h.huntId, store, t);
      assert QueuesOf(r.store, h.huntId) == t.queues;
      r
  }

  /** Stores a refreshed hunt's queues, and its object when the step
      modified it. */
  function WriteBack(id: string, store: Store, t: Step): (r: HuntUpdate)
    ensures r.hunt == t.hunt && r.persisted == t.modified
    ensures QueuesOf(r.store, id) == t.queues
    ensures forall other :: other != id ==> QueuesOf(r.store, other) == QueuesOf(store, other)
    ensures r.persisted ==> r.store.subjects == store.subjects[id := t.hunt]
    ensures !r.persisted ==> r.store.subjects == store.subjects
  {
    var written := store.(queues := store.queues[id := t.queues]);
    if t.modified then HuntUpdate(t.hunt, written.(subjects := written.subjects[id := t.hunt]), true)
    else HuntUpdate(t.hunt, written, false)
  }

  /** The rate bound is an invariant of the refresh loop: if a hunt has not
      scheduled more clients than were due at some earlier clock reading, it
      has not after a refresh at a later one (as long as the uint64
      arithmetic does not overflow). */
  lemma RateBoundPreserved(h: Hunt, store: Store, before: nat, now: nat, launch: HuntInfo -> Launch)
    requires h.totalClientsScheduled <= ExpectedClients(h, before)
    requires BaseTime(h) <= before <= now < U64
    requires EffectiveRate(h) * ((now - BaseTime(h)) / MicrosPerSecond) < U64
    requires EffectiveRate(h) * ((now - BaseTime(h)) / MicrosPerSecond) / 60
             + h.totalClientsWhenUnpaused < U64
    ensures var r := UpdateHunt(h, store, now, launch).hunt;
      r.totalClientsScheduled <= ExpectedClients(r, now)
  {
    ExpectedClientsMonotone(h, before, now);
    var e := ExpectedClients(h, now);
    var r := UpdateHunt(h, store, now, launch).hunt;
    assert r.totalClientsScheduled <= Max(h.totalClientsScheduled, e);
    SameRateSameExpected(h, r, now);
  }

  /** The expected count depends only on the rate, the base time and the
      unpause count. */
  lemma SameRateSameExpected(h: Hunt, h': Hunt, now: nat)
    requires h'.clientRate == h.clientRate && h'.createTime == h.createTime
    requires h'.lastUnpauseTime == h.lastUnpauseTime
    requires h'.totalClientsWhenUnpaused == h.totalClientsWhenUnpaused
    ensures ExpectedClients(h', now) == ExpectedClients(h, now)
  {
    assert ElapsedSeconds(h', now) == ElapsedSeconds(h, now);
  }

  /** A running hunt at 60 clients a minute, created at t = 1 s, with five
      readable pending clients. */
  const ScenarioHunt := Hunt("aff4:/hunts/H.0a0b0c0d", 1000000, 0, Running, 60,
                             1000000, 0, 0, 0, 0, 0)

  function ScenarioEntry(client: string): Entry
  {
    Entry(ScenarioHunt.huntId + "/pending/" + client,
          Some(HuntInfo(client, ScenarioHunt.huntId, "", InfoUnset, None)))
  }

  const ScenarioPending := [ScenarioEntry("C.1"), ScenarioEntry("C.2"), ScenarioEntry("C.3"),
                            ScenarioEntry("C.4"), ScenarioEntry("C.5")]

  /** Five seconds after creation, one client a second is due: a refresh in
      which every launch succeeds moves all five pending clients to
      `running` and writes the hunt back. */
  lemma FiveSecondScenario(launch: HuntInfo -> Launch)
    requires forall info :: launch(info).Launched?
    ensures var store := Store(map[], map[ScenarioHunt.huntId := EmptyQueues.(pending := ScenarioPending)]);
      var u := UpdateHunt(ScenarioHunt, store, 6000000, launch);
      && u.hunt.totalClientsScheduled == 5
      && QueuesOf(u.store, ScenarioHunt.huntId).pending == []
      && u.persisted
  {
    var store := Store(map[], map[ScenarioHunt.huntId := EmptyQueues.(pending := ScenarioPending)]);
    var q := QueuesOf(store, ScenarioHunt.huntId);
    assert q.pending == ScenarioPending && q.completed == [];
    ScenarioDue();
    var batch := Pulled(ScenarioHunt, q, 6000000);
    assert batch == ScenarioPending;
    AllLaunched(batch, launch);
    assert batch[0] in batch;
    var s := ScheduleClients(ScenarioHunt, q, 6000000, launch);
    assert s.hunt.totalClientsScheduled == 5 && s.queues.pending == [] && s.modified;
  }

  /** Five whole seconds at one client a second: five clients are due. */
  lemma ScenarioDue()
    ensures ExpectedClients(ScenarioHunt, 6000000) == 5 && Due(ScenarioHunt, 6000000) == 5
  {
    assert BaseTime(ScenarioHunt) == 1000000;
    assert Wrap64(6000000 - 1000000) == 5000000;
    assert ElapsedSeconds(ScenarioHunt, 6000000) == 5;
    assert Wrap64(EffectiveRate(ScenarioHunt) * 5) == 300;
  }

  /** True when some hunt of `hunts` is running under the id `id`. */
  predicate RunsUnder(hunts: seq<Hunt>, id: string)
  {
    exists i :: 0 <= i < |hunts| && hunts[i].state == Running && hunts[i].huntId == id
  }

  /** What a refresh may do to one in-memory hunt: keep its state and id,
      leave it alone unless it runs, raise no counter above what it was and
      keep the scheduled count within the rate bound. */
  predicate RefreshedHunt(h: Hunt, h': Hunt, now: nat)
  {
    && h'.state == h.state
    && h'.huntId == h.huntId
    && (h.state != Running ==> h' == h)
    && (forall d :: CounterOf(h, d) <= CounterOf(h', d))
    && h.totalClientsScheduled <= h'.totalClientsScheduled
       <= Max(h.totalClientsScheduled, ExpectedClients(h, now))
  }

  /** The result of `Update`: the in-memory hunt list and the store. */
  datatype Refresh = Refresh(hunts: seq<Hunt>, store: Store)

  /** `HuntDispatcher.Update`: every loaded hunt in order. */
  function Update(hunts: seq<Hunt>, store: Store, now: nat, launch: HuntInfo -> Launch): (r: Refresh)
    decreases |hunts|
    ensures |r.hunts| == |hunts|
    ensures forall i :: 0 <= i < |hunts| ==> RefreshedHunt(hunts[i], r.hunts[i], now)
    // Every running hunt's completed backlog is drained, and stays drained.
    ensures forall i :: 0 <= i < |hunts| && hunts[i].state == Running ==>
              QueuesOf(r.store, hunts[i].huntId).completed == []
    ensures forall id :: QueuesOf(store, id).completed == [] ==> QueuesOf(r.store, id).completed == []
    // Only running hunts' objects and queues are ever written.
    ensures forall id :: !RunsUnder(hunts, id) ==>
              && QueuesOf(r.store, id) == QueuesOf(store, id)
              && (id in r.store.subjects <==> id in store.subjects)
              && (id in store.subjects ==> r.store.subjects[id] == store.subjects[id])
  {
    if |hunts| == 0 then Refresh([], store)
    else
      var u := UpdateHunt(hunts[0], store, now, launch);
      var rest := Update(hunts[1..], u.store, now, launch);
      UpdateStepHunts(hunts, now, u.hunt, rest.hunts);
      UpdateStepDrains(hunts, store, now, launch, rest.store);
      UpdateStepUntouched(hunts, store, now, launch, rest.store);
      Refresh([u.hunt] + rest.hunts, rest.store)
  }

  /** The induction step of `Update` for the in-memory list. */
  lemma UpdateStepHunts(hunts: seq<Hunt>, now: nat, first: Hunt, rest: seq<Hunt>)
    requires |hunts| > 0 && |rest| == |hunts| - 1
    requires RefreshedHunt(hunts[0], first, now)
    requires forall i :: 0 <= i < |hunts[1..]| ==> RefreshedHunt(hunts[1..][i], rest[i], now)
    ensures forall i :: 0 <= i < |hunts| ==> RefreshedHunt(hunts[i], ([first] + rest)[i], now)
  {
    forall i | 1 <= i < |hunts| ensures RefreshedHunt(hunts[i], ([first] + rest)[i], now) {
      assert hunts[i] == hunts[1..][i - 1] && ([first] + rest)[i] == rest[i - 1];
    }
  }

  /** The induction step of `Update` for drained backlogs: the first hunt's
      update drains its own queue and keeps drained queues drained. */
  lemma UpdateStepDrains(hunts: seq<Hunt>, store: Store, now: nat, launch: HuntInfo -> Launch, final: Store)
    requires |hunts| > 0
    requires var u := UpdateHunt(hunts[0], store, now, launch);
      && (forall i :: 0 <= i < |hunts[1..]| && hunts[1..][i].state == Running ==>
            QueuesOf(final, hunts[1..][i].huntId).completed == [])
      && (forall id :: QueuesOf(u.store, id).completed == [] ==> QueuesOf(final, id).completed == [])
    ensures forall i :: 0 <= i < |hunts| && hunts[i].state == Running ==>
              QueuesOf(final, hunts[i].huntId).completed == []
    ensures forall id :: QueuesOf(store, id).completed == [] ==> QueuesOf(final, id).completed == []
  {
    var u := UpdateHunt(hunts[0], store, now, launch);
    assert forall id :: QueuesOf(store, id).completed == [] ==> QueuesOf(u.store, id).completed == [];
    forall i | 1 <= i < |hunts| && hunts[i].state == Running
      ensures QueuesOf(final, hunts[i].huntId).completed == []
    {
      assert hunts[i] == hunts[1..][i - 1];
    }
  }

  /** The induction step of `Update` for what it leaves alone. */
  lemma UpdateStepUntouched(hunts: seq<Hunt>, store: Store, now: nat, launch: HuntInfo -> Launch, final: Store)
    requires |hunts| > 0
    requires var u := UpdateHunt(hunts[0], store, now, launch);
      forall id :: !RunsUnder(hunts[1..], id) ==>
        && QueuesOf(final, id) == QueuesOf(u.store, id)
        && (id in final.subjects <==> id in u.store.subjects)
        && (id in u.store.subjects ==> final.subjects[id] == u.store.subjects[id])
    ensures forall id :: !RunsUnder(hunts, id) ==>
              && QueuesOf(final, id) == QueuesOf(store, id)
              && (id in final.subjects <==> id in store.subjects)
              && (id in store.subjects ==> final.subjects[id] == store.subjects[id])
  {
    forall id | RunsUnder(hunts[1..], id) ensures RunsUnder(hunts, id) {
      var i :| 0 <= i < |hunts[1..]| && hunts[1..][i].state == Running && hunts[1..][i].huntId == id;
      assert hunts[i + 1] == hunts[1..][i];
    }
    if hunts[0].state == Running {
      assert RunsUnder(hunts, hunts[0].huntId) by {
        assert 0 < |hunts| && hunts[0].state == Running;
      }
    }
  }

  /** The hunt ids of the mirror are pairwise different. */
  predicate DistinctIds(hunts: seq<Hunt>)
  {
    forall i, j :: 0 <= i < j < |hunts| ==> hunts[i].huntId != hunts[j].huntId
  }

  /** Two stores agree on one hunt: its queues and its stored object. */
  predicate SameAt(s1: Store, s2: Store, id: string)
  {
    && QueuesOf(s1, id) == QueuesOf(s2, id)
    && (id in s1.subjects <==> id in s2.subjects)
    && (id in s1.subjects ==> s1.subjects[id] == s2.subjects[id])
  }

  /** One hunt's update reads only that hunt's queues and object. */
  lemma UpdateHuntLocal(h: Hunt, s1: Store, s2: Store, now: nat, launch: HuntInfo -> Launch)
    requires SameAt(s1, s2, h.huntId)
    ensures var u1 := UpdateHunt(h, s1, now, launch);
      var u2 := UpdateHunt(h, s2, now, launch);
      && u1.hunt == u2.hunt && u1.persisted == u2.persisted
      && SameAt(u1.store, u2.store, h.huntId)
  {
  }

  /** With distinct ids, the refresh treats each hunt as if it were alone:
      its in-memory hunt, its queues and its stored object end up as one
      `UpdateHunt` on the original store leaves them. */
  lemma {:induction false} UpdatePerHunt(hunts: seq<Hunt>, store: Store, now: nat, launch: HuntInfo -> Launch, i: int)
    requires DistinctIds(hunts) && 0 <= i < |hunts|
    decreases |hunts|
    ensures var u := UpdateHunt(hunts[i], store, now, launch);
      var r := Update(hunts, store, now, launch);
      && r.hunts[i] == u.hunt
      && SameAt(r.store, u.store, hunts[i].huntId)
  {
    var id := hunts[i].huntId;
    var u0 := UpdateHunt(hunts[0], store, now, launch);
    var rest := Update(hunts[1..], u0.store, now, launch);
    assert Update(hunts, store, now, launch) == Refresh([u0.hunt] + rest.hunts, rest.store);
    if i == 0 {
      assert !RunsUnder(hunts[1..], id) by {
        forall j | 0 <= j < |hunts[1..]| ensures hunts[1..][j].huntId != id {
          assert hunts[1..][j] == hunts[j + 1];
        }
      }
      assert SameAt(rest.store, u0.store, id);
    } else {
      assert DistinctIds(hunts[1..]) by {
        forall a, b | 0 <= a < b < |hunts[1..]| ensures hunts[1..][a].huntId != hunts[1..][b].huntId {
          assert hunts[1..][a] == hunts[a + 1] && hunts[1..][b] == hunts[b + 1];
        }
      }
      UpdatePerHunt(hunts[1..], u0.store, now, launch, i - 1);
      assert hunts[1..][i - 1] == hunts[i];
      assert id != hunts[0].huntId;
      assert SameAt(u0.store, store, id);
      UpdateHuntLocal(hunts[i], u0.store, store, now, launch);
      var ui := UpdateHunt(hunts[i], u0.store, now, launch);
      assert rest.hunts[i - 1] == ui.hunt && SameAt(rest.store, ui.store, id);
      assert ([u0.hunt] + rest.hunts)[i] == rest.hunts[i - 1];
    }
  }

  /** With distinct ids, a running hunt's object is written back exactly
      when the refresh changed it, and otherwise left as it was. */
  lemma UpdateWritesBack(hunts: seq<Hunt>, store: Store, now: nat, launch: HuntInfo -> Launch, i: int)
    requires DistinctIds(hunts) && 0 <= i < |hunts|
    ensures var r := Update(hunts, store, now, launch);
      var id := hunts[i].huntId;
      && (r.hunts[i] != hunts[i] ==> id in r.store.subjects && r.store.subjects[id] == r.hunts[i])
      && (r.hunts[i] == hunts[i] ==>
            && (id in r.store.subjects <==> id in store.subjects)
            && (id in store.subjects ==> r.store.subjects[id] == store.subjects[id]))
  {
    UpdatePerHunt(hunts, store, now, launch, i);
  }

  /** With no running hunt, a refresh changes nothing at all. */
  lemma {:induction false} UpdateIdleIsIdentity(hunts: seq<Hunt>, store: Store, now: nat, launch: HuntInfo -> Launch)
    requires forall i :: 0 <= i < |hunts| ==> hunts[i].state != Running
    ensures Update(hunts, store, now, launch) == Refresh(hunts, store)
  {
    var r := Update(hunts, store, now, launch);
    assert r.hunts == hunts;
    if |hunts| > 0 {
      UpdateIdleIsIdentity(hunts[1..], store, now, launch);
    }
  }
}

=== FILE: hunt_ids.dfy ===
/** Hunt ids: four random bytes, hex encoded, under the hunts namespace;
    and Go's `path.Base`, by which `GetHunt` matches a short id. */
module HuntIds {
  import opened Common

  type byte = x: int | 0 <= x < 256

  /** `urns.BuildURN("hunts", ...)`: the namespace every hunt lives under. */
  const HuntsUrn := "aff4:/hunts/"

  /** `constants.HUNT_PREFIX`. */
  const HuntPrefix := "H."

  /** The prefix every valid hunt id starts with. */
  const HuntIdPrefix := HuntsUrn + HuntPrefix

  /** Random bytes in one hunt id (the buffer of `GetNewHuntId`). */
  const HuntIdBytes: nat := 4

  /** Digit `n` of Go's lower-case hex table "0123456789abcdef". */
  function HexChar(n: int): (c: char)
    requires 0 <= n < 16
    ensures IsLowerHexDigit(c)
  {
    if n < 10 then ('0' as int + n) as char else ('a' as int + n - 10) as char
  }

  predicate IsLowerHexDigit(c: char)
  {
    '0' <= c <= '9' || 'a' <= c <= 'f'
  }

  /** A digit Go's `hex.Decode` accepts. */
  predicate IsHexDigit(c: char)
  {
    '0' <= c <= '9' || 'a' <= c <= 'f' || 'A' <= c <= 'F'
  }

  function NibbleValue(c: char): (v: int)
    requires IsHexDigit(c)
    ensures 0 <= v < 16
  {
    if '0' <= c <= '9' then c as int - '0' as int
    else if 'a' <= c <= 'f' then c as int - 'a' as int + 10
    else c as int - 'A' as int + 10
  }

  /** The byte with high nibble `hi` and low nibble `lo`. */
  function ByteOf(hi: int, lo: int): byte
    requires 0 <= hi < 16 && 0 <= lo < 16
  {
    hi * 16 + lo
  }

  /** Go's `hex.Decode`: None for an odd length or a non-hex character. */
  function HexDecode(s: string): (r: Option<seq<byte>>)
    ensures r.Some? ==> 2 * |r.value| == |s|
  {
    if |s| % 2 == 1 then None
    else if forall i :: 0 <= i < |s| ==> IsHexDigit(s[i]) then
      Some(seq(|s| / 2, k requires 0 <= k < |s| / 2 => ByteOf(NibbleValue(s[2 * k]), NibbleValue(s[2 * k + 1]))))
    else None
  }

  lemma NibbleRoundTrip(n: int)
    requires 0 <= n < 16
    ensures NibbleValue(HexChar(n)) == n
  {
  }

  /** Go's `hex.Encode`: two lower-case digits per byte, high nibble first.
      Decoding the result gives the bytes back. */
  method HexEncode(src: seq<byte>) returns (dst: string)
    ensures |dst| == 2 * |src|
    ensures forall i :: 0 <= i < |dst| ==> IsLowerHexDigit(dst[i])
    ensures HexDecode(dst) == Some(src)
  {
    dst := [];
    var i := 0;
    while i < |src|
      invariant 0 <= i <= |src|
      invariant |dst| == 2 * i
      invariant forall k :: 0 <= k < i ==> dst[2 * k] == HexChar(src[k] / 16) && dst[2 * k + 1] == HexChar(src[k] % 16)
    {
      dst := dst + [HexChar(src[i] / 16), HexChar(src[i] % 16)];
      i := i + 1;
    }
    forall j | 0 <= j < |dst|
      ensures IsLowerHexDigit(dst[j])
    {
      var k := j / 2;
      if j == 2 * k {
        assert dst[j] == HexChar(src[k] / 16);
      } else {
        assert j == 2 * k + 1;
        assert dst[j] == HexChar(src[k] % 16);
      }
    }
    forall k | 0 <= k < |src|
      ensures ByteOf(NibbleValue(dst[2 * k]), NibbleValue(dst[2 * k + 1])) == src[k]
    {
      NibbleRoundTrip(src[k] / 16);
      NibbleRoundTrip(src[k] % 16);
    }
    assert HexDecode(dst).value == src;
  }

  /** `GetNewHuntId`: the hunt namespace, the hunt prefix, and the eight hex
      digits of four random bytes, which the caller supplies. */
  method GetNewHuntId(random: seq<byte>) returns (id: string)
    requires |random| == HuntIdBytes
    ensures HasPrefix(id, HuntIdPrefix)
    ensures |id| == |HuntIdPrefix| + 2 * HuntIdBytes
    ensures forall i :: |HuntIdPrefix| <= i < |id| ==> IsLowerHexDigit(id[i])
    ensures HexDecode(id[|HuntIdPrefix|..]) == Some(random)
    ensures PathBase(id) == id[|HuntsUrn|..]
  {
    var digits := HexEncode(random);
    id := HuntIdPrefix + digits;
    assert id[..|HuntIdPrefix|] == HuntIdPrefix;
    assert id[|HuntIdPrefix|..] == digits;
    assert id == "aff4:/hunts" + "/" + (HuntPrefix + digits);
    assert forall i :: 0 <= i < |HuntPrefix + digits| ==> (HuntPrefix + digits)[i] != '/' by {
      forall i | 0 <= i < |HuntPrefix + digits|
        ensures (HuntPrefix + digits)[i] != '/'
      {
        if i >= |HuntPrefix| {
          assert (HuntPrefix + digits)[i] == digits[i - |HuntPrefix|];
        }
      }
    }
    PathBaseOfJoin("aff4:/hunts", HuntPrefix + digits);
    assert id[|HuntsUrn|..] == HuntPrefix + digits;
  }

  /** Drops every trailing '/'. */
  function StripTrailingSlashes(p: string): (r: string)
    ensures |r| <= |p| && r == p[..|r|]
    ensures |r| == 0 || r[|r| - 1] != '/'
    ensures forall i :: |r| <= i < |p| ==> p[i] == '/'
  {
    if |p| > 0 && p[|p| - 1] == '/' then StripTrailingSlashes(p[..|p| - 1]) else p
  }

  /** The part after the last '/', or all of `p` when it has none. */
  function AfterLastSlash(p: string): (r: string)
    ensures |r| <= |p| && r == p[|p| - |r|..]
    ensures forall i :: 0 <= i < |r| ==> r[i] != '/'
    ensures |r| < |p| ==> p[|p| - |r| - 1] == '/'
  {
    if |p| == 0 then p
    else if p[|p| - 1] == '/' then []
    else AfterLastSlash(p[..|p| - 1]) + [p[|p| - 1]]
  }

  /** Go's `path.Base`: the last element of a slash-separated path; "." for
      the empty path and "/" for a path of slashes only. */
  function PathBase(p: string): (r: string)
    ensures |r| > 0
    ensures r == "/" || forall i :: 0 <= i < |r| ==> r[i] != '/'
  {
    if p == "" then "."
    else
      var last := AfterLastSlash(StripTrailingSlashes(p));
      if last == "" then "/" else last
  }

  lemma {:induction false} AfterLastSlashOfJoin(dir: string, name: string)
    requires forall i :: 0 <= i < |name| ==> name[i] != '/'
    ensures AfterLastSlash(dir + "/" + name) == name
    decreases |name|
  {
    var p := dir + "/" + name;
    if |name| == 0 {
      assert p[|p| - 1] == '/';
    } else {
      var shorter := name[..|name| - 1];
      assert p[..|p| - 1] == dir + "/" + shorter;
      AfterLastSlashOfJoin(dir, shorter);
      assert name == shorter + [name[|name| - 1]];
    }
  }

  /** The base of `dir/name` is `name` when `name` is a non-empty path element. */
  lemma PathBaseOfJoin(dir: string, name: string)
    requires |name| > 0
    requires forall i :: 0 <= i < |name| ==> name[i] != '/'
    ensures PathBase(dir + "/" + name) == name
  {
    var p := dir + "/" + name;
    assert p[|p| - 1] == name[|name| - 1];
    assert StripTrailingSlashes(p) == p;
    AfterLastSlashOfJoin(dir, name);
  }
}

=== FILE: lifecycle.dfy ===
/** The hunt lifecycle API: creating and modifying hunts, listing and
    looking them up in the dispatcher's mirror, and the request handling of
    the per-hunt client and result listings. */
module Lifecycle {
  import opened Common
  import opened HuntTypes
  import opened HuntIds
  import opened Scheduler

  /** Default lifetime of a hunt: seven days, in microseconds. */
  const DefaultExpiryMicros: nat := 7 * 24 * 60 * 60 * 1000000

  /** Page size used when a listing request leaves its count at zero. */
  const DefaultPageCount: nat := 50

  const ModificationNotSupported := "Modification not supported."
  const NotFound := "Not found"
  const InvalidHuntId := "Invalid hunt id"

  /** Stands for whatever error the datastore reports on a failed read. */
  const ReadFailed := "datastore read failed"

  // ---------------------------------------------------------------------
  // CreateHunt

  /** `CreateHunt`: gives the draft a fresh id and its creation time, a
      seven-day expiry when its own lies before creation, and the PAUSED
      state when it has none; then stores it under its id. */
  method CreateHunt(store: Store, draft: Hunt, random: seq<byte>, now: nat)
    returns (id: string, hunt: Hunt, store': Store)
    requires |random| == HuntIdBytes
    ensures hunt.huntId == id && HasPrefix(id, HuntIdPrefix)
    ensures PathBase(id) == id[|HuntsUrn|..]
    ensures hunt.createTime == now && hunt.lastUnpauseTime == now
    ensures hunt.expires >= now
    ensures draft.expires < now <==> hunt.expires != draft.expires
    ensures draft.expires < now ==> hunt.expires == now + DefaultExpiryMicros
    ensures hunt.state != Unset
    ensures draft.state == Unset <==> hunt.state != draft.state
    ensures draft.state == Unset ==> hunt.state == Paused
    ensures hunt == draft.(huntId := id, createTime := now, lastUnpauseTime := now,
                           expires := hunt.expires, state := hunt.state)
    ensures store'.subjects == store.subjects[id := hunt] && store'.queues == store.queues
  {
    id := GetNewHuntId(random);
    hunt := draft.(huntId := id, createTime := now, lastUnpauseTime := now);
    if hunt.expires < hunt.createTime {
      hunt := hunt.(expires := now + DefaultExpiryMicros);
    }
    if hunt.state == Unset {
      hunt := hunt.(state := Paused);
    }
    store' := store.(subjects := store.subjects[id := hunt]);
  }

  /** A new hunt has nothing due yet beyond the clients it carries over:
      scheduling measures its rate from the moment of creation. */
  lemma CreatedHuntStartsFromZero(hunt: Hunt, now: nat)
    requires hunt.createTime == now && hunt.lastUnpauseTime == now
    requires 0 < now < U64 && hunt.totalClientsWhenUnpaused < U64
    ensures ExpectedClients(hunt, now) == hunt.totalClientsWhenUnpaused
  {
    assert BaseTime(hunt) == now;
    assert ElapsedSeconds(hunt, now) == 0;
  }

  // ---------------------------------------------------------------------
  // ModifyHunt

  /** `ModifyHunt` as written: the stored state is overwritten before the
      PAUSED-to-RUNNING test, so the test compares the new state with
      itself and the unpause bookkeeping it guards never runs. */
  function ModifyHunt(store: Store, modification: Hunt, now: nat): (r: Result<Store>)
    ensures modification.huntId !in store.subjects ==> r == Err(ReadFailed)
    ensures (modification.huntId in store.subjects && modification.state == Unset)
              ==> r == Err(ModificationNotSupported)
    ensures r.Ok? <==> modification.huntId in store.subjects && modification.state != Unset
    // Only the state changes: LastUnpauseTime and TotalClientsWhenUnpaused keep their values.
    ensures r.Ok? ==>
              var prev := store.subjects[modification.huntId];
              r.value == store.(subjects := store.subjects[modification.huntId := prev.(state := modification.state)])
  {
    if modification.huntId !in store.subjects then Err(ReadFailed)
    else
      var hunt := store.subjects[modification.huntId];
      if modification.state != Unset then
        var hunt1 := hunt.(state := modification.state);
        var hunt2 :=
          if hunt1.state == Paused && modification.state == Running
          then hunt1.(lastUnpauseTime := now, totalClientsWhenUnpaused := hunt1.totalClientsScheduled)
          else hunt1;
        Ok(store.(subjects := store.subjects[modification.huntId := hunt2]))
      else Err(ModificationNotSupported)
  }

  /** A paused hunt, created at t = 1 s with rate 60/min, that scheduled
      nothing before its pause. */
  const PausedExample := Hunt("aff4:/hunts/H.00000000", 1000000, 0, Paused, 60,
                              1000000, 0, 0, 0, 0, 0)

  /** As written, unpausing the example an hour after creation makes 3600
      clients due at once: the paused hour is caught up in one burst. */
  lemma ModifyHuntUnpauseBursts()
    ensures var unpause := PausedExample.(state := Running);
      var store := Store(map[PausedExample.huntId := PausedExample], map[]);
      var r := ModifyHunt(store, unpause, 3601000000);
      && r.Ok?
      && ExpectedClients(r.value.subjects[PausedExample.huntId], 3601000000) == 3600
  {
    var unpause := PausedExample.(state := Running);
    var store := Store(map[PausedExample.huntId := PausedExample], map[]);
    var h := ModifyHunt(store, unpause, 3601000000).value.subjects[PausedExample.huntId];
    assert h == PausedExample.(state := Running);
    assert ElapsedSeconds(h, 3601000000) == 3600;
  }

  /** `ModifyHunt` as its comment intends: the PAUSED-to-RUNNING test looks
      at the stored state before it is overwritten. */
  function ModifyHuntIntended(store: Store, modification: Hunt, now: nat): (r: Result<Store>)
    ensures r.Ok? <==> modification.huntId in store.subjects && modification.state != Unset
    ensures (modification.huntId in store.subjects && modification.state == Unset)
              ==> r == Err(ModificationNotSupported)
    ensures r.Ok? ==> r.value.queues == store.queues && r.value.subjects.Keys == store.subjects.Keys
    ensures r.Ok? ==>
              var prev := store.subjects[modification.huntId];
              var next := r.value.subjects[modification.huntId];
              && (forall id :: id in store.subjects && id != modification.huntId
                     ==> r.value.subjects[id] == store.subjects[id])
              && next.state == modification.state
              && (prev.state == Paused && modification.state == Running ==>
                    next == prev.(state := Running, lastUnpauseTime := now,
                                totalClientsWhenUnpaused := prev.totalClientsScheduled))
              && (!(prev.state == Paused && modification.state == Running) ==>
                    next == prev.(state := modification.state))
  {
    if modification.huntId !in store.subjects then Err(ReadFailed)
    else
      var hunt := store.subjects[modification.huntId];
      if modification.state != Unset then
        var unpausing := hunt.state == Paused && modification.state == Running;
        var hunt1 := hunt.(state := modification.state);
        var hunt2 :=
          if unpausing
          then hunt1.(lastUnpauseTime := now, totalClientsWhenUnpaused := hunt1.totalClientsScheduled)
          else hunt1;
        Ok(store.(subjects := store.subjects[modification.huntId := hunt2]))
      else Err(ModificationNotSupported)
  }

  /** With the intended bookkeeping, a hunt unpaused at `now` has nothing due
      at `now`: the next scheduling pass pulls no client and changes nothing,
      however long the pause lasted. */
  lemma IntendedUnpauseSchedulesNothing(store: Store, modification: Hunt, now: nat,
                                        q: HuntQueues, launch: HuntInfo -> Launch)
    requires modification.huntId in store.subjects
    requires store.subjects[modification.huntId].state == Paused && modification.state == Running
    requires 0 < now < U64 && store.subjects[modification.huntId].totalClientsScheduled < U64
    ensures var h := ModifyHuntIntended(store, modification, now).value.subjects[modification.huntId];
      && ExpectedClients(h, now) == h.totalClientsScheduled
      && ScheduleClients(h, q, now, launch) == Step(h, q, false)
  {
    var h := ModifyHuntIntended(store, modification, now).value.subjects[modification.huntId];
    assert BaseTime(h) == now;
    assert ElapsedSeconds(h, now) == 0;
  }

  // ---------------------------------------------------------------------
  // Reading the mirror

  /** `GetApplicableHunts`: the hunts created after `ts`, in mirror order. */
  function GetApplicableHunts(hunts: seq<Hunt>, ts: nat): (r: seq<Hunt>)
    ensures |r| <= |hunts|
    ensures forall h :: h in r <==> h in hunts && h.createTime > ts
  {
    if |hunts| == 0 then []
    else (if hunts[0].createTime > ts then [hunts[0]] else []) + GetApplicableHunts(hunts[1..], ts)
  }

  /** Filtering keeps the order: the hunts of a concatenation are the hunts
      of the first part followed by those of the second. */
  lemma {:induction false} ApplicableHuntsOfConcat(a: seq<Hunt>, b: seq<Hunt>, ts: nat)
    ensures GetApplicableHunts(a + b, ts) == GetApplicableHunts(a, ts) + GetApplicableHunts(b, ts)
  {
    if |a| == 0 {
      assert a + b == b;
    } else {
      assert (a + b)[1..] == a[1..] + b;
      ApplicableHuntsOfConcat(a[1..], b, ts);
    }
  }

  /** `ListHunts`: the applicable hunts whose index lies in
      [Offset, Offset + Count), the end computed on uint64. */
  method ListHunts(hunts: seq<Hunt>, offset: nat, count: nat) returns (items: seq<Hunt>)
    requires offset < U64 && count < U64
    ensures var apps := GetApplicableHunts(hunts, 0);
      && |items| == Max(0, Min(Wrap64(offset + count), |apps|) - offset)
      && forall i :: 0 <= i < |items| ==> offset + i < |apps| && items[i] == apps[offset + i]
    ensures offset + count < U64 ==>
              |items| == Max(0, Min(offset + count, |GetApplicableHunts(hunts, 0)|) - offset)
    // When Offset + Count overflows, the end wraps below the offset and the page is empty.
    ensures offset + count >= U64 ==> items == []
  {
    var apps := GetApplicableHunts(hunts, 0);
    var end := Wrap64(offset + count);
    items := [];
    var idx := 0;
    while idx < |apps|
      invariant 0 <= idx <= |apps|
      invariant |items| == Max(0, Min(idx, end) - offset)
      invariant forall i :: 0 <= i < |items| ==> offset + i < |apps| && items[i] == apps[offset + i]
    {
      if idx < offset {
        idx := idx + 1;
        continue;
      }
      if idx >= end {
        break;
      }
      items := items + [apps[idx]];
      idx := idx + 1;
    }
  }

  /** The first index at or after `from` where `xs` holds `x`, if any. */
  function IndexOf<T(==)>(xs: seq<T>, x: T, from: nat): (r: Option<nat>)
    requires from <= |xs|
    decreases |xs| - from
    ensures r.Some? ==> from <= r.value < |xs| && xs[r.value] == x
    ensures r.Some? ==> forall j :: from <= j < r.value ==> xs[j] != x
    ensures r.None? <==> forall j :: from <= j < |xs| ==> xs[j] != x
  {
    if from == |xs| then None
    else if xs[from] == x then Some(from)
    else IndexOf(xs, x, from + 1)
  }

  /** The short id (`path.Base`) of every hunt, in order. */
  function Bases(hunts: seq<Hunt>): (r: seq<string>)
    ensures |r| == |hunts| && forall i :: 0 <= i < |hunts| ==> r[i] == PathBase(hunts[i].huntId)
  {
    seq(|hunts|, i requires 0 <= i < |hunts| => PathBase(hunts[i].huntId))
  }

  /** `hunts[i]` is the first hunt whose id has base `id`. */
  predicate FirstMatch(hunts: seq<Hunt>, id: string, i: int)
  {
    && 0 <= i < |hunts| && PathBase(hunts[i].huntId) == id
    && forall j :: 0 <= j < i ==> PathBase(hunts[j].huntId) != id
  }

  /** `GetHunt`: the first applicable hunt whose id has base `id`;
      "Not found" when there is none. */
  function GetHunt(hunts: seq<Hunt>, id: string): (r: Result<Hunt>)
    ensures r.Err? <==> forall h :: h in hunts && h.createTime > 0 ==> PathBase(h.huntId) != id
    ensures r.Err? ==> r == Err(NotFound)
    ensures r.Ok? ==> r.value in hunts && r.value.createTime > 0 && PathBase(r.value.huntId) == id
  {
    var apps := GetApplicableHunts(hunts, 0);
    var bases := Bases(apps);
    match IndexOf(bases, id, 0)
    case None =>
      assert forall h :: h in apps ==> PathBase(h.huntId) != id by {
        forall h | h in apps ensures PathBase(h.huntId) != id {
          var j :| 0 <= j < |apps| && apps[j] == h;
          assert bases[j] != id;
        }
      }
      Err(NotFound)
    case Some(k) =>
      assert apps[k] in apps;
      assert forall j :: 0 <= j < k ==> PathBase(apps[j].huntId) != id by {
        forall j | 0 <= j < k ensures PathBase(apps[j].huntId) != id {
          assert bases[j] != id;
        }
      }
      Ok(apps[k])
  }

  /** Of several hunts with the same short id, `GetHunt` returns the first
      applicable one. */
  lemma GetHuntFindsFirst(hunts: seq<Hunt>, id: string, i: int)
    requires FirstMatch(GetApplicableHunts(hunts, 0), id, i)
    ensures GetHunt(hunts, id) == Ok(GetApplicableHunts(hunts, 0)[i])
  {
    var apps := GetApplicableHunts(hunts, 0);
    var bases := Bases(apps);
    assert bases[i] == id;
    var k := IndexOf(bases, id, 0);
    assert k.Some?;
  }

  // ---------------------------------------------------------------------
  // Per-hunt listings

  /** Count 0 in a listing request means the default page size. */
  function PageCount(count: nat): (n: nat)
    ensures n > 0
    ensures count != 0 ==> n == count
    ensures count == 0 ==> n == DefaultPageCount
  {
    if count == 0 then DefaultPageCount else count
  }

  /** The records of the readable entries of a listing, in order; an
      unreadable entry is skipped. */
  function CollectReadable(entries: seq<Entry>): (r: seq<HuntInfo>)
    ensures |r| <= |entries|
    ensures forall x :: x in r <==> exists e :: e in entries && e.info == Some(x)
    // With `CollectReadableConcat`, these two cases fix the order: records
    // come out in listing order, duplicates kept.
    ensures entries == [] ==> r == []
    ensures |entries| == 1 ==> r == (if entries[0].info.Some? then [entries[0].info.value] else [])
  {
    if |entries| == 0 then []
    else
      var rest := CollectReadable(entries[1..]);
      assert forall e :: e in entries[1..] ==> e in entries;
      assert entries[0] in entries;
      assert forall e :: e in entries ==> e == entries[0] || e in entries[1..];
      match entries[0].info
      case None => rest
      case Some(x) => [x] + rest
  }

  /** Collecting is a homomorphism: a listing split in two collects to the
      two halves' records, one after the other. */
  lemma {:induction false} CollectReadableConcat(a: seq<Entry>, b: seq<Entry>)
    ensures CollectReadable(a + b) == CollectReadable(a) + CollectReadable(b)
  {
    if |a| == 0 {
      assert a + b == b;
    } else {
      assert (a + b)[0] == a[0];
      assert (a + b)[1..] == a[1..] + b;
      CollectReadableConcat(a[1..], b);
    }
  }

  /** When every entry is readable nothing is skipped: the result is the
      records, index for index. */
  lemma {:induction false} CollectReadableAllReadable(entries: seq<Entry>)
    requires forall i :: 0 <= i < |entries| ==> entries[i].info.Some?
    ensures var r := CollectReadable(entries);
      |r| == |entries| && forall i :: 0 <= i < |entries| ==> r[i] == entries[i].info.value
  {
    if |entries| > 0 {
      CollectReadableAllReadable(entries[1..]);
      var r := CollectReadable(entries);
      assert r == [entries[0].info.value] + CollectReadable(entries[1..]);
      forall i | 1 <= i < |entries| ensures r[i] == entries[i].info.value {
        assert entries[i] == entries[1..][i - 1];
      }
    }
  }

  /** Which hunt clients a `ListHuntClients` request asks for. */
  datatype ClientsKind = KindPending | KindScheduled | KindCompleted | KindResults | KindOther(code: nat)

  /** The queue directory listed for a kind; an unknown kind lists `pending`. */
  function QueueSuffix(kind: ClientsKind): (s: string)
    ensures s in {"/pending", "/running", "/completed", "/results"}
    ensures s == "/pending" <==> kind.KindPending? || kind.KindOther?
    ensures s == "/running" <==> kind.KindScheduled?
    ensures s == "/completed" <==> kind.KindCompleted?
    ensures s == "/results" <==> kind.KindResults?
  {
    match kind
    case KindPending => "/pending"
    case KindScheduled => "/running"
    case KindCompleted => "/completed"
    case KindResults => "/results"
    case KindOther(_) => "/pending"
  }

  datatype ListHuntClientsRequest = ListHuntClientsRequest(huntId: string, kind: ClientsKind, offset: nat, count: nat)

  /** `ListHuntClients`: one page of the chosen queue, skipping records that
      cannot be read. `listDir` is the store's listing of a directory. */
  function ListHuntClients(req: ListHuntClientsRequest, listDir: string -> seq<Entry>): (r: seq<HuntInfo>)
    ensures |r| <= PageCount(req.count)
    ensures var listing := listDir(req.huntId + QueueSuffix(req.kind));
      forall x :: x in r <==>
        exists i :: req.offset <= i < |listing| && i < req.offset + PageCount(req.count)
                    && listing[i].info == Some(x)
    // In listing order: the readable records of the window, which is empty
    // past the end of the listing.
    ensures var listing := listDir(req.huntId + QueueSuffix(req.kind));
      && (req.offset >= |listing| ==> r == [])
      && (req.offset <= |listing| ==>
            r == CollectReadable(listing[req.offset..Min(req.offset + PageCount(req.count), |listing|)]))
  {
    var listing := listDir(req.huntId + QueueSuffix(req.kind));
    var page := Page(listing, req.offset, PageCount(req.count));
    var r := CollectReadable(page);
    PageMembership(listing, req.offset, PageCount(req.count));
    r
  }

  /** An entry is on a page exactly when its index lies in the page's window. */
  lemma PageMembership(listing: seq<Entry>, offset: nat, limit: nat)
    ensures forall x :: (exists e :: e in Page(listing, offset, limit) && e.info == Some(x)) <==>
              exists i :: offset <= i < |listing| && i < offset + limit && listing[i].info == Some(x)
  {
    var page := Page(listing, offset, limit);
    forall x
      ensures (exists e :: e in page && e.info == Some(x)) <==>
              exists i :: offset <= i < |listing| && i < offset + limit && listing[i].info == Some(x)
    {
      if exists e :: e in page && e.info == Some(x) {
        var e :| e in page && e.info == Some(x);
        var j :| 0 <= j < |page| && page[j] == e;
        assert listing[offset + j] == e;
      }
      if exists i :: offset <= i < |listing| && i < offset + limit && listing[i].info == Some(x) {
        var i :| offset <= i < |listing| && i < offset + limit && listing[i].info == Some(x);
        assert page[i - offset] == listing[i];
      }
    }
  }

  /** A `GetHuntInfos` / `GetHuntResults` request. */
  datatype ResultsRequest = ResultsRequest(huntId: string, offset: nat, count: nat)

  /** The checks both result readers make before touching the store: the
      count defaults to 50, and an id outside the hunts namespace is refused. */
  function ValidateResultsRequest(req: ResultsRequest): (r: Result<ResultsRequest>)
    ensures r.Err? <==> !HasPrefix(req.huntId, HuntIdPrefix)
    ensures r.Err? ==> r == Err(InvalidHuntId)
    ensures r.Ok? ==> r.value == req.(count := PageCount(req.count)) && r.value.count > 0
  {
    var req' := req.(count := PageCount(req.count));
    if !HasPrefix(req'.huntId, HuntIdPrefix) then Err(InvalidHuntId) else Ok(req')
  }

  /** `GetHuntInfos`: one page of the hunt's `results` queue, skipping
      unreadable records. `listDir` is the store's listing of a directory;
      an invalid id is refused without consulting it. */
  function GetHuntInfos(req: ResultsRequest, listDir: string -> seq<Entry>): (r: Result<seq<HuntInfo>>)
    ensures !HasPrefix(req.huntId, HuntIdPrefix) ==> r == Err(InvalidHuntId)
    ensures HasPrefix(req.huntId, HuntIdPrefix) ==> r.Ok?
    ensures r.Ok? ==> |r.value| <= PageCount(req.count)
    ensures r.Ok? ==> var listing := listDir(req.huntId + "/results");
              forall x :: x in r.value <==>
                exists i :: req.offset <= i < |listing| && i < req.offset + PageCount(req.count)
                            && listing[i].info == Some(x)
    ensures r.Ok? ==> var listing := listDir(req.huntId + "/results");
              && (req.offset >= |listing| ==> r.value == [])
              && (req.offset <= |listing| ==>
                    r.value == CollectReadable(listing[req.offset..Min(req.offset + PageCount(req.count), |listing|)]))
  {
    match ValidateResultsRequest(req)
    case Err(msg) => Err(msg)
    case Ok(valid) =>
      assert valid == req.(count := PageCount(req.count));
      var listing := listDir(req.huntId + "/results");
      var n := PageCount(req.count);
      PageMembership(listing, req.offset, n);
      var page := Page(listing, req.offset, n);
      assert req.offset <= |listing| ==> page == listing[req.offset..Min(req.offset + n, |listing|)];
      Ok(CollectReadable(page))
  }

  /** A malformed id is refused; a well-formed id whose `results` queue is
      empty yields an empty page, not an error. */
  lemma GetHuntInfosExamples(listDir: string -> seq<Entry>)
    requires listDir("aff4:/hunts/H.ABCDEF0123456789/results") == []
    ensures GetHuntInfos(ResultsRequest("not-a-hunt-id", 0, 0), listDir) == Err(InvalidHuntId)
    ensures GetHuntInfos(ResultsRequest("aff4:/hunts/H.ABCDEF0123456789", 0, 0), listDir) == Ok([])
  {
    assert !HasPrefix("not-a-hunt-id", HuntIdPrefix) by {
      assert "not-a-hunt-id"[0] != HuntIdPrefix[0];
    }
    assert HasPrefix("aff4:/hunts/H.ABCDEF0123456789", HuntIdPrefix);
    assert "aff4:/hunts/H.ABCDEF0123456789" + "/results" == "aff4:/hunts/H.ABCDEF0123456789/results";
    assert Page<Entry>([], 0, DefaultPageCount) == [];
    assert CollectReadable([]) == [];
  }
}

=== FILE: scheduler.dfy ===
/** The rate-limited client scheduler: moves as many clients from a hunt's
    pending queue to its running queue as the hunt's client rate allows. */
module Scheduler {
  import opened Common
  import opened HuntTypes

  /** Clients per minute when the hunt leaves its rate at zero. */
  const DefaultClientRate: nat := 20

  const MicrosPerSecond: nat := 1000000

  function EffectiveRate(h: Hunt): nat
  {
    if h.clientRate == 0 then DefaultClientRate else h.clientRate
  }

  /** The time scheduling is measured from: the last unpause, or creation. */
  function BaseTime(h: Hunt): nat
  {
    if h.lastUnpauseTime == 0 then h.createTime else h.lastUnpauseTime
  }

  /** Whole seconds since the base time, computed on uint64. */
  function ElapsedSeconds(h: Hunt, now: nat): nat
  {
    Wrap64(now - BaseTime(h)) / MicrosPerSecond
  }

  /** How many clients should have been scheduled by `now`, computed on
      uint64 as `rate * seconds / 60 + TotalClientsWhenUnpaused`. */
  function ExpectedClients(h: Hunt, now: nat): (e: nat)
    ensures e < U64
    // When the clock has not gone backwards and nothing overflows, this is
    // the plain formula of the rate.
    ensures BaseTime(h) <= now < U64
            && EffectiveRate(h) * ((now - BaseTime(h)) / MicrosPerSecond) < U64
            && EffectiveRate(h) * ((now - BaseTime(h)) / MicrosPerSecond) / 60
               + h.totalClientsWhenUnpaused < U64
            ==> e == EffectiveRate(h) * ((now - BaseTime(h)) / MicrosPerSecond) / 60
                     + h.totalClientsWhenUnpaused
  {
    Wrap64(Wrap64(EffectiveRate(h) * ElapsedSeconds(h, now)) / 60 + h.totalClientsWhenUnpaused)
  }

  /** How many pending clients may be pulled now: the deficit, or none. */
  function Due(h: Hunt, now: nat): (d: nat)
    // The scheduled count plus what is due never exceeds the expected count
    // (or the scheduled count, when that is already past it).
    ensures h.totalClientsScheduled + d == Max(h.totalClientsScheduled, ExpectedClients(h, now))
    ensures d == 0 <==> h.totalClientsScheduled >= ExpectedClients(h, now)
  {
    var expected := ExpectedClients(h, now);
    if h.totalClientsScheduled < expected then expected - h.totalClientsScheduled else 0
  }

  lemma MulMonotone(a: nat, b: nat, c: nat)
    requires b <= c
    ensures a * b <= a * c
  {
  }

  lemma DivMonotone(a: nat, b: nat, d: nat)
    requires a <= b && 0 < d
    ensures a / d <= b / d
  {
    if a / d > b / d {
      MulMonotone(d, b / d + 1, a / d);
      assert false;
    }
  }

  /** Without overflow, later clocks never lower the expected count: the
      scheduler's quota only grows while the hunt runs. */
  lemma {:induction false} ExpectedClientsMonotone(h: Hunt, now1: nat, now2: nat)
    requires BaseTime(h) <= now1 <= now2 < U64
    requires EffectiveRate(h) * ((now2 - BaseTime(h)) / MicrosPerSecond) < U64
    requires EffectiveRate(h) * ((now2 - BaseTime(h)) / MicrosPerSecond) / 60
             + h.totalClientsWhenUnpaused < U64
    ensures ExpectedClients(h, now1) <= ExpectedClients(h, now2)
  {
    var r := EffectiveRate(h);
    var s1 := (now1 - BaseTime(h)) / MicrosPerSecond;
    var s2 := (now2 - BaseTime(h)) / MicrosPerSecond;
    DivMonotone(now1 - BaseTime(h), now2 - BaseTime(h), MicrosPerSecond);
    MulMonotone(r, s1, s2);
    DivMonotone(r * s1, r * s2, 60);
  }

  /** The record written to `errors/<ClientId>` when a launch fails. */
  function FailedRecord(info: HuntInfo, reason: string, now: nat): HuntInfo
  {
    info.(state := InfoError,
          result := Some(FlowContext(now, FlowRunning, 0, "HuntDispatcher: " + reason)))
  }

  /** The record written to `running/<ClientId>` when a launch succeeds. */
  function LaunchedRecord(info: HuntInfo, flowId: string): HuntInfo
  {
    info.(flowId := flowId)
  }

  /** Processes one pulled pending entry: an unreadable entry is dropped, a
      launched one goes to `running`, a failed launch to `errors`. */
  function ScheduleEntry(h: Hunt, q: HuntQueues, e: Entry, now: nat, launch: HuntInfo -> Launch): (r: Step)
    ensures r.queues.pending == q.pending && r.queues.completed == q.completed
    ensures r.queues.results == q.results && r.queues.noResults == q.noResults
    ensures e.info.None? ==> r == Step(h, q, false)
    ensures e.info.Some? && launch(e.info.value).Launched? ==>
              var info := e.info.value;
              && r.modified
              && r.hunt == h.(totalClientsScheduled := h.totalClientsScheduled + 1)
              && r.queues.errors == q.errors
              && r.queues.running.Keys == q.running.Keys + {info.clientId}
              && r.queues.running[info.clientId].flowId == launch(info).flowId
              && r.queues.running[info.clientId].(flowId := info.flowId) == info
              && (forall k :: k in q.running && k != info.clientId ==> r.queues.running[k] == q.running[k])
    ensures e.info.Some? && launch(e.info.value).LaunchFailed? ==>
              var info := e.info.value;
              && r.modified
              && r.hunt == h.(totalClientsWithErrors := h.totalClientsWithErrors + 1)
              && r.queues.running == q.running
              && r.queues.errors.Keys == q.errors.Keys + {info.clientId}
              && r.queues.errors[info.clientId].state == InfoError
              && r.queues.errors[info.clientId].result.Some?
              && r.queues.errors[info.clientId].result.value.createTime == now
              && r.queues.errors[info.clientId].result.value.backtrace == "HuntDispatcher: " + launch(info).reason
              && r.queues.errors[info.clientId].(state := info.state, result := info.result) == info
              && (forall k :: k in q.errors && k != info.clientId ==> r.queues.errors[k] == q.errors[k])
  {
    match e.info
    case None => Step(h, q, false)
    case Some(info) =>
      match launch(info)
      case Launched(flowId) =>
        Step(h.(totalClientsScheduled := h.totalClientsScheduled + 1),
             q.(running := q.running[info.clientId := LaunchedRecord(info, flowId)]),
             true)
      case LaunchFailed(reason) =>
        Step(h.(totalClientsWithErrors := h.totalClientsWithErrors + 1),
             q.(errors := q.errors[info.clientId := FailedRecord(info, reason, now)]),
             true)
  }

  /** Number of readable entries whose launch succeeds. */
  function CountLaunched(batch: seq<Entry>, launch: HuntInfo -> Launch): (n: nat)
    ensures n <= |batch|
  {
    if |batch| == 0 then 0
    else (if IsLaunched(batch[0], launch) then 1 else 0)
         + CountLaunched(batch[1..], launch)
  }

  /** Number of readable entries whose launch fails. */
  function CountFailed(batch: seq<Entry>, launch: HuntInfo -> Launch): (n: nat)
    ensures n + CountLaunched(batch, launch) <= |batch|
  {
    if |batch| == 0 then 0
    else (if IsFailed(batch[0], launch) then 1 else 0)
         + CountFailed(batch[1..], launch)
  }

  /** A readable entry whose launch succeeds. */
  predicate IsLaunched(e: Entry, launch: HuntInfo -> Launch)
  {
    e.info.Some? && launch(e.info.value).Launched?
  }

  /** A readable entry whose launch fails. */
  predicate IsFailed(e: Entry, launch: HuntInfo -> Launch)
  {
    e.info.Some? && launch(e.info.value).LaunchFailed?
  }

  /** Client ids of the readable entries whose launch succeeds. */
  function LaunchedClients(batch: seq<Entry>, launch: HuntInfo -> Launch): set<string>
  {
    if |batch| == 0 then {}
    else (if IsLaunched(batch[0], launch) then {batch[0].info.value.clientId} else {})
         + LaunchedClients(batch[1..], launch)
  }

  /** Client ids of the readable entries whose launch fails. */
  function FailedClients(batch: seq<Entry>, launch: HuntInfo -> Launch): set<string>
  {
    if |batch| == 0 then {}
    else (if IsFailed(batch[0], launch) then {batch[0].info.value.clientId} else {})
         + FailedClients(batch[1..], launch)
  }

  /** The records a batch may leave in `running`. */
  function LaunchedRecords(batch: seq<Entry>, launch: HuntInfo -> Launch): set<HuntInfo>
  {
    if |batch| == 0 then {}
    else (if IsLaunched(batch[0], launch)
          then {LaunchedRecord(batch[0].info.value, launch(batch[0].info.value).flowId)} else {})
         + LaunchedRecords(batch[1..], launch)
  }

  /** The records a batch may leave in `errors`. */
  function FailedRecords(batch: seq<Entry>, launch: HuntInfo -> Launch, now: nat): set<HuntInfo>
  {
    if |batch| == 0 then {}
    else (if IsFailed(batch[0], launch)
          then {FailedRecord(batch[0].info.value, launch(batch[0].info.value).reason, now)} else {})
         + FailedRecords(batch[1..], launch, now)
  }

  /** Processes the pulled entries in listing order. Every readable entry
      bumps exactly one of two counters, by the outcome of its launch;
      nothing outside `running`, `errors` and those two counters changes. */
  function ScheduleBatch(h: Hunt, q: HuntQueues, batch: seq<Entry>, now: nat, launch: HuntInfo -> Launch): (r: Step)
    decreases |batch|
    ensures r.hunt.totalClientsScheduled == h.totalClientsScheduled + CountLaunched(batch, launch)
    ensures r.hunt.totalClientsWithErrors == h.totalClientsWithErrors + CountFailed(batch, launch)
    ensures r.hunt == h.(totalClientsScheduled := r.hunt.totalClientsScheduled,
                         totalClientsWithErrors := r.hunt.totalClientsWithErrors)
    ensures r.queues == q.(running := r.queues.running, errors := r.queues.errors)
    ensures r.modified <==> CountLaunched(batch, launch) + CountFailed(batch, launch) > 0
  {
    if |batch| == 0 then Step(h, q, false)
    else
      var s := ScheduleEntry(h, q, batch[0], now, launch);
      var t := ScheduleBatch(s.hunt, s.queues, batch[1..], now, launch);
      Step(t.hunt, t.queues, s.modified || t.modified)
  }

  /** After a batch, `running` holds the earlier records plus one record per
      launched client, written under its client id with the flow id the
      launch returned; records of other clients are untouched. */
  lemma {:induction false} ScheduleBatchRunning(h: Hunt, q: HuntQueues, batch: seq<Entry>, now: nat, launch: HuntInfo -> Launch)
    decreases |batch|
    ensures var r := ScheduleBatch(h, q, batch, now, launch);
      && r.queues.running.Keys == q.running.Keys + LaunchedClients(batch, launch)
      && (forall k :: k in q.running && k !in LaunchedClients(batch, launch) ==> r.queues.running[k] == q.running[k])
      && (forall k :: k in LaunchedClients(batch, launch) ==>
            r.queues.running[k] in LaunchedRecords(batch, launch) && r.queues.running[k].clientId == k)
  {
    if |batch| > 0 {
      var s := ScheduleEntry(h, q, batch[0], now, launch);
      ScheduleBatchRunning(s.hunt, s.queues, batch[1..], now, launch);
    }
  }

  /** After a batch, `errors` holds the earlier records plus one ERROR record
      per client whose launch failed; records of other clients are untouched. */
  lemma {:induction false} ScheduleBatchErrors(h: Hunt, q: HuntQueues, batch: seq<Entry>, now: nat, launch: HuntInfo -> Launch)
    decreases |batch|
    ensures var r := ScheduleBatch(h, q, batch, now, launch);
      && r.queues.errors.Keys == q.errors.Keys + FailedClients(batch, launch)
      && (forall k :: k in q.errors && k !in FailedClients(batch, launch) ==> r.queues.errors[k] == q.errors[k])
      && (forall k :: k in FailedClients(batch, launch) ==>
            r.queues.errors[k] in FailedRecords(batch, launch, now) && r.queues.errors[k].clientId == k
            && r.queues.errors[k].state == InfoError)
  {
    if |batch| > 0 {
      var s := ScheduleEntry(h, q, batch[0], now, launch);
      ScheduleBatchErrors(s.hunt, s.queues, batch[1..], now, launch);
    }
  }

  /** When every entry is readable and launches, the whole batch counts as
      scheduled and nothing as failed. */
  lemma {:induction false} AllLaunched(batch: seq<Entry>, launch: HuntInfo -> Launch)
    requires forall i :: 0 <= i < |batch| ==> IsLaunched(batch[i], launch)
    ensures CountLaunched(batch, launch) == |batch| && CountFailed(batch, launch) == 0
  {
    if |batch| > 0 {
      AllLaunched(batch[1..], launch);
    }
  }

  /** A batch bumps some counter exactly when it holds a readable entry. */
  lemma {:induction false} ReadableCounted(batch: seq<Entry>, launch: HuntInfo -> Launch)
    ensures CountLaunched(batch, launch) + CountFailed(batch, launch) > 0
            <==> exists e :: e in batch && e.info.Some?
  {
    if |batch| > 0 {
      ReadableCounted(batch[1..], launch);
      assert forall e :: e in batch <==> e == batch[0] || e in batch[1..] by {
        assert batch == [batch[0]] + batch[1..];
      }
    }
  }

  /** The pending entries the scheduler pulls: the first `Due` of them. */
  function Pulled(h: Hunt, q: HuntQueues, now: nat): (batch: seq<Entry>)
    ensures |batch| == Min(Due(h, now), |q.pending|)
    ensures batch == q.pending[..|batch|]
  {
    Page(q.pending, 0, Due(h, now))
  }

  /** One scheduling pass over a running hunt (`_ScheduleClientsForHunt`). */
  function ScheduleClients(h: Hunt, q: HuntQueues, now: nat, launch: HuntInfo -> Launch): (r: Step)
    // Nothing is due: nothing is pulled and nothing changes.
    ensures h.totalClientsScheduled >= ExpectedClients(h, now) ==> r == Step(h, q, false)
    // Rate bound: the scheduled count never decreases and never passes the due count.
    ensures h.totalClientsScheduled <= r.hunt.totalClientsScheduled
            <= Max(h.totalClientsScheduled, ExpectedClients(h, now))
    ensures (r.hunt.totalClientsScheduled - h.totalClientsScheduled)
            + (r.hunt.totalClientsWithErrors - h.totalClientsWithErrors) <= Due(h, now)
    // Every pulled entry leaves `pending`, whatever happened to it.
    ensures r.queues.pending == q.pending[|Pulled(h, q, now)|..]
    ensures r.hunt == h.(totalClientsScheduled := r.hunt.totalClientsScheduled,
                         totalClientsWithErrors := r.hunt.totalClientsWithErrors)
    ensures r.queues.completed == q.completed && r.queues.results == q.results
            && r.queues.noResults == q.noResults
    ensures r.hunt.totalClientsScheduled == h.totalClientsScheduled + CountLaunched(Pulled(h, q, now), launch)
    ensures r.hunt.totalClientsWithErrors == h.totalClientsWithErrors + CountFailed(Pulled(h, q, now), launch)
    ensures r.modified <==> exists e :: e in Pulled(h, q, now) && e.info.Some?
  {
    var expected := ExpectedClients(h, now);
    if h.totalClientsScheduled < expected then
      var batch := Page(q.pending, 0, expected - h.totalClientsScheduled);
      if |batch| == 0 then Step(h, q, false)
      else
        ReadableCounted(batch, launch);
        ScheduleBatch(h, q.(pending := q.pending[|batch|..]), batch, now, launch)
    else Step(h, q, false)
  }

  /** Scheduling files every pulled client: launched ones under `running`
      with their new flow id, failed ones under `errors` as ERROR records.
      No other key appears in either queue, and earlier clients keep their
      records. */
  lemma ScheduleClientsFiles(h: Hunt, q: HuntQueues, now: nat, launch: HuntInfo -> Launch)
    ensures var r := ScheduleClients(h, q, now, launch);
      var batch := Pulled(h, q, now);
      && r.queues.running.Keys == q.running.Keys + LaunchedClients(batch, launch)
      && (forall k :: k in q.running && k !in LaunchedClients(batch, launch) ==> r.queues.running[k] == q.running[k])
      && (forall k :: k in LaunchedClients(batch, launch) ==>
            r.queues.running[k] in LaunchedRecords(batch, launch) && r.queues.running[k].clientId == k)
    ensures var r := ScheduleClients(h, q, now, launch);
      var batch := Pulled(h, q, now);
      && r.queues.errors.Keys == q.errors.Keys + FailedClients(batch, launch)
      && (forall k :: k in q.errors && k !in FailedClients(batch, launch) ==> r.queues.errors[k] == q.errors[k])
      && (forall k :: k in FailedClients(batch, launch) ==>
            r.queues.errors[k] in FailedRecords(batch, launch, now) && r.queues.errors[k].clientId == k
            && r.queues.errors[k].state == InfoError)
  {
    var batch := Pulled(h, q, now);
    if |batch| > 0 {
      ScheduleBatchRunning(h, q.(pending := q.pending[|batch|..]), batch, now, launch);
      ScheduleBatchErrors(h, q.(pending := q.pending[|batch|..]), batch, now, launch);
    }
  }
}

=== FILE: triage.dfy ===
/** Result triage: drains a hunt's `completed` queue in pages of 100 and
    files every entry under `errors`, `results` or `no_results`. */
module Triage {
  import opened Common
  import opened HuntTypes

  /** Size of one page taken off the `completed` queue. */
  const TriageBatchSize: nat := 100

  /** The three queues a completed entry can be filed into. */
  datatype Destination = ToErrors | ToResults | ToNoResults

  /** Where a completed entry goes. The source's fourth branch (neither
      more than zero nor zero results) cannot be reached: the count is
      unsigned. */
  function Classify(e: Entry): (d: Destination)
    ensures d == ToErrors <==>
              e.info.None? || e.info.value.result.None? || e.info.value.result.value.state == FlowError
    ensures d == ToResults <==>
              e.info.Some? && e.info.value.result.Some? && e.info.value.result.value.state != FlowError
              && e.info.value.result.value.totalResults > 0
    ensures d == ToNoResults <==>
              e.info.Some? && e.info.value.result.Some? && e.info.value.result.value.state != FlowError
              && e.info.value.result.value.totalResults == 0
  {
    match e.info
    case None => ToErrors
    case Some(info) =>
      if info.result.None? || info.result.value.state == FlowError then ToErrors
      else if info.result.value.totalResults > 0 then ToResults
      else if info.result.value.totalResults == 0 then ToNoResults
      else assert false; ToErrors
  }

  /** The client id an entry is filed under: an unreadable record leaves the
      freshly allocated summary empty, so its client id is empty. */
  function FiledKey(e: Entry): string
  {
    if e.info.Some? then e.info.value.clientId else EmptyInfo.clientId
  }

  /** The record written to the destination queue. */
  function FiledRecord(e: Entry): HuntInfo
  {
    if e.info.Some? then e.info.value else EmptyInfo
  }

  /** The queue of `d`. */
  function DestinationQueue(q: HuntQueues, d: Destination): map<string, HuntInfo>
  {
    match d
    case ToErrors => q.errors
    case ToResults => q.results
    case ToNoResults => q.noResults
  }

  /** The counter of `d`. */
  function CounterOf(h: Hunt, d: Destination): nat
  {
    match d
    case ToErrors => h.totalClientsWithErrors
    case ToResults => h.totalClientsWithResults
    case ToNoResults => h.totalClientsWithoutResults
  }

  /** The three triage counters together. */
  function TriagedTotal(h: Hunt): nat
  {
    h.totalClientsWithErrors + h.totalClientsWithResults + h.totalClientsWithoutResults
  }

  /** Files one completed entry: exactly one queue gains the record under
      its client id and exactly one counter grows by one. */
  function TriageEntry(h: Hunt, q: HuntQueues, e: Entry): (r: Step)
    ensures r.modified
    ensures forall d :: CounterOf(r.hunt, d) == CounterOf(h, d) + (if d == Classify(e) then 1 else 0)
    ensures TriagedTotal(r.hunt) == TriagedTotal(h) + 1
    ensures r.hunt == h.(totalClientsWithErrors := r.hunt.totalClientsWithErrors,
                         totalClientsWithResults := r.hunt.totalClientsWithResults,
                         totalClientsWithoutResults := r.hunt.totalClientsWithoutResults)
    ensures DestinationQueue(r.queues, Classify(e)) == DestinationQueue(q, Classify(e))[FiledKey(e) := FiledRecord(e)]
    ensures forall d :: d != Classify(e) ==> DestinationQueue(r.queues, d) == DestinationQueue(q, d)
    ensures r.queues.pending == q.pending && r.queues.running == q.running
            && r.queues.completed == q.completed
  {
    match Classify(e)
    case ToErrors =>
      Step(h.(totalClientsWithErrors := h.totalClientsWithErrors + 1),
           q.(errors := q.errors[FiledKey(e) := FiledRecord(e)]), true)
    case ToResults =>
      Step(h.(totalClientsWithResults := h.totalClientsWithResults + 1),
           q.(results := q.results[FiledKey(e) := FiledRecord(e)]), true)
    case ToNoResults =>
      Step(h.(totalClientsWithoutResults := h.totalClientsWithoutResults + 1),
           q.(noResults := q.noResults[FiledKey(e) := FiledRecord(e)]), true)
  }

  /** Number of entries of `batch` classified as `d`. */
  function CountTo(batch: seq<Entry>, d: Destination): (n: nat)
    ensures n <= |batch|
  {
    if |batch| == 0 then 0
    else (if Classify(batch[0]) == d then 1 else 0) + CountTo(batch[1..], d)
  }

  /** Keys under which `batch` files entries into `d`. */
  function KeysTo(batch: seq<Entry>, d: Destination): set<string>
  {
    if |batch| == 0 then {}
    else (if Classify(batch[0]) == d then {FiledKey(batch[0])} else {}) + KeysTo(batch[1..], d)
  }

  /** Records `batch` files into `d`. */
  function RecordsTo(batch: seq<Entry>, d: Destination): set<HuntInfo>
  {
    if |batch| == 0 then {}
    else (if Classify(batch[0]) == d then {FiledRecord(batch[0])} else {}) + RecordsTo(batch[1..], d)
  }

  /** Every entry is counted under exactly one destination. */
  lemma {:induction false} CountToPartition(batch: seq<Entry>)
    ensures CountTo(batch, ToErrors) + CountTo(batch, ToResults) + CountTo(batch, ToNoResults) == |batch|
  {
    if |batch| > 0 {
      CountToPartition(batch[1..]);
    }
  }

  /** Counting distributes over consecutive pages. */
  lemma {:induction false} CountToAppend(a: seq<Entry>, b: seq<Entry>, d: Destination)
    ensures CountTo(a + b, d) == CountTo(a, d) + CountTo(b, d)
    ensures KeysTo(a + b, d) == KeysTo(a, d) + KeysTo(b, d)
    ensures RecordsTo(a + b, d) == RecordsTo(a, d) + RecordsTo(b, d)
  {
    if |a| > 0 {
      CountToAppend(a[1..], b, d);
      assert (a + b)[1..] == a[1..] + b;
    } else {
      assert a + b == b;
    }
  }

  /** Files a page of completed entries in listing order. */
  function TriageBatch(h: Hunt, q: HuntQueues, batch: seq<Entry>): (r: Step)
    decreases |batch|
    ensures forall d :: CounterOf(r.hunt, d) == CounterOf(h, d) + CountTo(batch, d)
    ensures r.hunt == h.(totalClientsWithErrors := r.hunt.totalClientsWithErrors,
                         totalClientsWithResults := r.hunt.totalClientsWithResults,
                         totalClientsWithoutResults := r.hunt.totalClientsWithoutResults)
    ensures r.queues == q.(errors := r.queues.errors, results := r.queues.results,
                           noResults := r.queues.noResults)
    ensures r.modified <==> |batch| > 0
  {
    if |batch| == 0 then Step(h, q, false)
    else
      var s := TriageEntry(h, q, batch[0]);
      var t := TriageBatch(s.hunt, s.queues, batch[1..]);
      Step(t.hunt, t.queues, true)
  }

  /** After a page, each destination queue holds its earlier records plus
      the page's entries classified into it, keyed by client id; other keys
      keep their records. */
  lemma {:induction false} TriageBatchFiles(h: Hunt, q: HuntQueues, batch: seq<Entry>, d: Destination)
    decreases |batch|
    ensures WrittenUnder(DestinationQueue(q, d), DestinationQueue(TriageBatch(h, q, batch).queues, d), KeysTo(batch, d))
  {
    if |batch| > 0 {
      var s := TriageEntry(h, q, batch[0]);
      TriageBatchFiles(s.hunt, s.queues, batch[1..], d);
      var head := if Classify(batch[0]) == d then {FiledKey(batch[0])} else {};
      assert WrittenUnder(DestinationQueue(q, d), DestinationQueue(s.queues, d), head);
      var r := TriageBatch(h, q, batch);
      assert r.queues == TriageBatch(s.hunt, s.queues, batch[1..]).queues;
      WrittenUnderCompose(DestinationQueue(q, d), DestinationQueue(s.queues, d), DestinationQueue(r.queues, d), head, KeysTo(batch[1..], d));
    }
  }

  /** Every record a page writes into a destination queue is one of the
      page's entries classified into it. */
  lemma {:induction false} TriageBatchRecords(h: Hunt, q: HuntQueues, batch: seq<Entry>, d: Destination)
    decreases |batch|
    ensures var r := TriageBatch(h, q, batch);
      forall k :: k in KeysTo(batch, d) ==>
        && k in DestinationQueue(r.queues, d)
        && DestinationQueue(r.queues, d)[k] in RecordsTo(batch, d)
        && DestinationQueue(r.queues, d)[k].clientId == k
  {
    if |batch| > 0 {
      var s := TriageEntry(h, q, batch[0]);
      TriageBatchRecords(s.hunt, s.queues, batch[1..], d);
      TriageBatchFiles(s.hunt, s.queues, batch[1..], d);
      var r := TriageBatch(h, q, batch);
      assert r.queues == TriageBatch(s.hunt, s.queues, batch[1..]).queues;
    }
  }

  /** The outcome of one `_SortResultsForHunt` call: the step and the number
      of completed entries it processed. */
  datatype Sorted = Sorted(step: Step, resultCount: nat)

  /** Takes the first page of `completed`, files it, and deletes the whole
      page from `completed` (`_SortResultsForHunt`). */
  function SortResults(h: Hunt, q: HuntQueues): (r: Sorted)
    ensures r.resultCount == Min(TriageBatchSize, |q.completed|)
    ensures r.step.queues.completed == q.completed[r.resultCount..]
    ensures r.step.modified <==> r.resultCount > 0
    ensures TriagedTotal(r.step.hunt) == TriagedTotal(h) + r.resultCount
    ensures forall d :: CounterOf(r.step.hunt, d) == CounterOf(h, d) + CountTo(q.completed[..r.resultCount], d)
    ensures r.step.hunt == h.(totalClientsWithErrors := r.step.hunt.totalClientsWithErrors,
                              totalClientsWithResults := r.step.hunt.totalClientsWithResults,
                              totalClientsWithoutResults := r.step.hunt.totalClientsWithoutResults)
    ensures r.step.queues.pending == q.pending && r.step.queues.running == q.running
  {
    var batch := Page(q.completed, 0, TriageBatchSize);
    if |batch| == 0 then Sorted(Step(h, q, false), 0)
    else
      var t := TriageBatch(h, q.(completed := q.completed[|batch|..]), batch);
      CountToPartition(batch);
      assert batch == q.completed[..|batch|];
      Sorted(t, |batch|)
  }
}

=== FILE: types.dfy ===
/** The records the hunt dispatcher reads and writes: hunts, per-client
    hunt records (HuntInfo), and the per-hunt queues of the datastore. */
module HuntTypes {
  import opened Common

  /** Lifecycle state of a hunt. */
  datatype HuntState = Unset | Paused | Running | Stopped | Archived

  /** State of a flow context; FlowRunning stands for the protobuf zero value. */
  datatype FlowState = FlowRunning | FlowTerminated | FlowError

  /** The outcome a delegate flow records once it stops. */
  datatype FlowContext = FlowContext(
    createTime: nat,
    state: FlowState,
    totalResults: nat,
    backtrace: string)

  /** State of a per-client hunt record. Only ERROR is ever set by the
      dispatcher; every other value is carried along untouched. */
  datatype InfoState = InfoUnset | InfoError | InfoOther(code: nat)

  /** One client's participation in a hunt. The start request the record
      carries is opaque to the dispatcher and is not modelled. */
  datatype HuntInfo = HuntInfo(
    clientId: string,
    huntId: string,
    flowId: string,
    state: InfoState,
    result: Option<FlowContext>)

  /** A freshly allocated record: what the dispatcher holds when a read fails. */
  const EmptyInfo := HuntInfo("", "", "", InfoUnset, None)

  /** A fleet-wide collection task. Times are microseconds since the epoch. */
  datatype Hunt = Hunt(
    huntId: string,
    createTime: nat,
    expires: nat,
    state: HuntState,
    clientRate: nat,
    lastUnpauseTime: nat,
    totalClientsWhenUnpaused: nat,
    totalClientsScheduled: nat,
    totalClientsWithResults: nat,
    totalClientsWithErrors: nat,
    totalClientsWithoutResults: nat)

  /** A child of a listed queue directory: its path and the record stored at
      it, or None when the record could not be read. */
  datatype Entry = Entry(urn: string, info: Option<HuntInfo>)

  /** The queues under one hunt id. `pending` and `completed` are read in
      listing order, so they are sequences; the other queues are only written,
      under `<queue>/<ClientId>`, so a later write replaces an earlier one. */
  datatype HuntQueues = HuntQueues(
    pending: seq<Entry>,
    running: map<string, HuntInfo>,
    completed: seq<Entry>,
    errors: map<string, HuntInfo>,
    results: map<string, HuntInfo>,
    noResults: map<string, HuntInfo>)

  const EmptyQueues := HuntQueues([], map[], [], map[], map[], map[])

  /** The datastore: hunt objects by hunt id, and the queues under each id. */
  datatype Store = Store(subjects: map<string, Hunt>, queues: map<string, HuntQueues>)

  /** The queues under a hunt id; a directory never written lists as empty. */
  function QueuesOf(store: Store, id: string): HuntQueues
  {
    if id in store.queues then store.queues[id] else EmptyQueues
  }

  /** What the flow-launch RPC answered for one client. */
  datatype Launch = Launched(flowId: string) | LaunchFailed(reason: string)

  /** A hunt and its queues after one dispatcher step, and whether the step
      changed the hunt object (so that it must be persisted). */
  datatype Step = Step(hunt: Hunt, queues: HuntQueues, modified: bool)
}
